=== FILE: README.md ===
# svg2pbm PBM codec in Dafny

A model of the Portable Bitmap codec inside `svg2pbm/svg2pbm.py`. It covers
the two row-repacking primitives `ascii2bin` and `bin2ascii`, the file
writer `write_pbm` and the file reader `loadpbm`, and the pixel threshold
`img2pbm_ascii`. The writer is a pure function from its arguments to the
bytes of the file. The reader is a pure function from those bytes to the
magic number, the pixel string, the width and the height.

Pixels are `seq<char>` over `'0'`/`'1'`, as in the source. Bytes are the
subset type `byte` (0 to 255). The exceptions the source raises on these
paths, for every input the model can represent, are `Error` values in a
`Result` (the few it does not model are listed under "Left out"):

- `NotAscii`: `bytes.decode('ascii')` fails.
- `BadDimensions`: the dimension line does not split into two fields.
- `BadInteger`: `int()` refuses a field.
- `ZeroStep`: a `range` step of 0.
- `UnknownFormat`: the magic is neither `P1` nor `P4`. The error carries the magic; the source's message names the file instead.
- `WrongBufferType`: a `str` is given where a `bytearray` is needed, or the reverse.

The Python helpers the code relies on are defined in their own modules:

- `BitStrings`: `int(s, 2)` and `f'{n:08b}'`.
- `Strings`: `str.encode()` (UTF-8), `bytes.decode('ascii')`, binary `readline()`, `str.split`, `str.join`, and the 70-column line wrapping.
- `Decimal`: `f"{n}"` and `int()`, including the sign, the `_` digit separators and the whitespace `int()` strips around an ASCII argument (tab to carriage return, and space).

Where the code and the PBM format description differ, the model follows
the code:

- **Row padding.** `ascii2bin` always appends `8 - width % 8` zero bits to a row. A row therefore takes `width / 8 + 1` bytes, not `ceil(width / 8)`. When the width is a multiple of 8, each row carries one extra `0x00` byte (`Pack.PackWholeByteRow`). `ascii2bin` and `bin2ascii` agree on this rule, so they are still inverse to each other.
- **Comment lines.** The reader skips exactly one line after the magic, whatever bytes it holds.
- **No body checks.** The body's length is not checked against the dimensions, and neither is its character set.
- **Dimensions.** The height is never checked. The reader accepts any width `int()` reads, except that a raw (`P4`) width from -8 to -1 makes `bin2ascii` raise. The plain writer raises for width 0 and writes no body lines for a negative width.
- **Plain body.** Only `'\n'` is removed from a plain body.

The writer `Pbm.WritePbmWith` takes the comment line as a parameter, so that
its properties hold for any comment; `Pbm.WritePbm` fixes it to the
source's `# Created by svg2pbm converter`.

## Model

| member | source | states |
|---|---|---|
| Pack.Ascii2BinLength | svg2pbm/svg2pbm.py:68-81 | for whole rows, `ascii2bin` gives `len(s) / width * (width / 8 + 1)` bytes: one row of `width` bits plus `8 - width % 8` zero bits per `width / 8 + 1` bytes |
| Pack.Ascii2Bin | svg2pbm/svg2pbm.py:66-81 | `ascii2bin` pads each row and packs 8 digits per byte; `Pack.Ascii2BinLength`, `Pack.Ascii2BinPixelBit` and `Pack.UnpackPack` state its length, bit order and inverse |
| Pack.PadRows | svg2pbm/svg2pbm.py:70-71 | each `width`-pixel slice is followed by `8 - width % 8` zero digits; `Pack.KeepRowsOfPadRows` states that keeping the first `width` digits of each row undoes it |
| Pack.PackBits | svg2pbm/svg2pbm.py:73-80 | 8-digit chunks give `ceil(len / 8)` bytes; `Pack.PackBitsOfExpand` and `Pack.ExpandOfPackBits` state that it inverts the 8-digit expansion |
| Pack.KeepRows | svg2pbm/svg2pbm.py:61-63 | keeping the first `width` digits of each `8 * (width / 8 + 1)`-digit row never lengthens the buffer; `Pack.PadRowsOfKeepRows` states that padding again restores clear padding |
| Pack.Ascii2BinPixelBit | svg2pbm/svg2pbm.py:68-80 | for a pixel string of whole rows, pixel `j` of row `r` is bit `7 - j % 8` of byte `r * (width / 8 + 1) + j / 8`, and every padding bit is 0 |
| Pack.Bin2AsciiPixelBit | svg2pbm/svg2pbm.py:58-63 | for whole rows of `width / 8 + 1` bytes, pixel `j` of row `r` is bit `7 - j % 8` of byte `r * (width / 8 + 1) + j / 8` |
| Pack.Ascii2BinBitOrder | svg2pbm/svg2pbm.py:68-80 | pixel `j` of row `r` is bit `7 - j % 8` (MSB first) of byte `r * (width / 8 + 1) + j / 8`, and every padding bit is 0; the products are written `Times(r, d)`, which `BitStrings.TimesIsMul` equates with `r * d`; `Pack.Ascii2BinPixelBit` states it with `*` |
| Pack.PackedRows | svg2pbm/svg2pbm.py:70-80 | expanding the packed bytes gives back exactly the zero-padded rows `rbuffer` built before packing |
| Pack.PackThreeByTwo | svg2pbm/svg2pbm.py:66-81 | width 3 and `"101010"` pack to `[0xA0, 0x40]` |
| Pack.PackWholeByteRow | svg2pbm/svg2pbm.py:68-71 | width 8 and `"11111111"` pack to `[0xFF, 0x00]`: a row whose width is a multiple of 8 gets a whole zero byte of padding |
| Pack.PartialRowNotRestored | svg2pbm/svg2pbm.py:55-81 | a last row shorter than the width is padded on the right, so `"1"` at width 3 packs to `[0x20]` and unpacks to `"001"`, not `"1"` |
| Pack.Expand | svg2pbm/svg2pbm.py:59-60 | the first loop of `bin2ascii` gives 8 digits per byte |
| Pack.ExpandBits | svg2pbm/svg2pbm.py:59-60 | every digit the first loop of `bin2ascii` produces is `'0'` or `'1'` |
| Pack.ExpandAt | svg2pbm/svg2pbm.py:59-60 | digit `t` of byte `i`'s group is digit `t` of `f'{b:08b}'` for that byte |
| Pack.Bin2Ascii | svg2pbm/svg2pbm.py:55-64 | `bin2ascii` gives only `'0'`/`'1'` and at most 8 digits per byte |
| Pack.Bin2AsciiLength | svg2pbm/svg2pbm.py:58-64 | for a whole number of `width / 8 + 1`-byte rows, the output has `len(b) / (width / 8 + 1) * width` pixels |
| Pack.Bin2AsciiBitOrder | svg2pbm/svg2pbm.py:58-63 | pixel `j` of row `r` is bit `7 - j % 8` of byte `r * (width / 8 + 1) + j / 8`, with the products written `Times(r, d)`; `Pack.Bin2AsciiPixelBit` states it with `*` |
| Pack.Bin2AsciiInt | svg2pbm/svg2pbm.py:55-64 | with the integer width `loadpbm` parses: widths from -8 to -1 make the step 0 and raise; widths below -8 give an empty loop and `""`; other widths behave as `bin2ascii` |
| Pack.UnpackPack | svg2pbm/svg2pbm.py:55-81 | `bin2ascii(ascii2bin(s, w), w) == s` for `w > 0` and a pixel string of whole rows |
| Pack.PackUnpack | svg2pbm/svg2pbm.py:55-81 | for `w > 0` and whole rows of bytes, `ascii2bin(bin2ascii(b, w), w) == b` holds exactly when every padding bit of `b` is 0 |
| Pack.KeepRowsOfPadRows | svg2pbm/svg2pbm.py:55-81 | keeping the first `width` digits of every padded row undoes the padding |
| Pack.PadRowsOfKeepRows | svg2pbm/svg2pbm.py:55-81 | padding the kept rows again gives back any row buffer whose padding digits are all `'0'` |
| BitStrings.BinValueOfBits | svg2pbm/svg2pbm.py:60-79 | the model's `Bits(n, k)`, the low `k` bits of `n`, is a string of binary digits that `int(_, 2)` reads as `n` modulo `2^k`. It is `f'{n:0kb}'` only for `n < 2^k`, the case `BitStrings.BitsRoundTrip` states; the source formats only bytes with `k = 8` |
| BitStrings.BinValue | svg2pbm/svg2pbm.py:79 | `int(s, 2)` of `k` binary digits is below `2^k`; `BitStrings.BitsOfBinValue` states its inverse |
| BitStrings.ByteBits | svg2pbm/svg2pbm.py:60 | `f'{b:08b}'` is eight binary digits; `BitStrings.ByteRoundTrip` states its inverse |
| BitStrings.BitsOfBinValue | svg2pbm/svg2pbm.py:60-79 | formatting `int(s, 2)` with `len(s)` binary digits gives `s` back |
| BitStrings.BitsRoundTrip | svg2pbm/svg2pbm.py:60-79 | a number below `2^k` formatted with `k` binary digits is read back by `int(_, 2)` |
| BitStrings.ByteRoundTrip | svg2pbm/svg2pbm.py:60-79 | `int(f'{b:08b}', 2) == b` for every byte |
| Pack.PackBitsOfExpand | svg2pbm/svg2pbm.py:59-80 | packing the 8-digit groups of a byte sequence gives the same bytes back |
| Pack.ExpandOfPackBits | svg2pbm/svg2pbm.py:59-80 | expanding bytes packed from a whole number of 8-digit groups gives the digits back |
| Pbm.WritePbmWith | svg2pbm/svg2pbm.py:120-128 | the file starts with the encoded header (magic, the comment line, the dimensions). In binary mode the buffer follows verbatim. In plain mode with a positive width the encoded body `Strings.Lines(s, min(70, width))` follows, whose lines `Strings.LinesPieces` gives one by one. Any other plain write that succeeds (a negative width, or a positive width with an empty `bytearray`) is the header alone. It raises exactly when a `str` buffer is given in binary mode, when a non-empty `bytearray` is given in plain mode with a positive width, or when the plain width is 0 |
| Pbm.WritePbm | svg2pbm/svg2pbm.py:95-128 | `write_pbm` is `Pbm.WritePbmWith` with the comment `# Created by svg2pbm converter`, so that member's contract states what it writes |
| Pbm.HeaderText | svg2pbm/svg2pbm.py:120-122 | the three header lines: the magic, the comment and `"{width} {height}"`, each ended by `"\n"`; `Pbm.LoadHeader` states that the reader parses them back and `Pbm.HeaderExample` shows one |
| Pbm.LineLength | svg2pbm/svg2pbm.py:126 | a plain line holds 70 pixels, or the width when it is below 70; `Pbm.PlainLinesShort` states that no line of the body is longer |
| Pbm.HeaderExample | svg2pbm/svg2pbm.py:120-122 | the plain header of a 3 by 2 image is the lines `P1`, `# Created by svg2pbm converter` and `3 2`, each ended by `"\n"` |
| Pbm.PlainExample | svg2pbm/svg2pbm.py:120-128 | the plain write of `"101010"` at width 3 is the header followed by `"101\n010\n"` |
| Pbm.PlainLinesShort | svg2pbm/svg2pbm.py:126-128 | for a newline-free pixel string, no line of a plain body is longer than 70 pixels or than the width |
| Strings.Lines | svg2pbm/svg2pbm.py:126-128 | the wrapped plain body is empty exactly for an empty text and otherwise ends in `'\n'`; `Strings.LinesPieces` states its lines |
| Strings.LinesPieces | svg2pbm/svg2pbm.py:126-128 | for a newline-free text and `L > 0`, the wrapped body has `ceil(len(s) / L)` lines; line `i` is `s[i * L : (i + 1) * L]`, shorter only for the last, and nothing follows the last `'\n'` |
| Strings.LinesShort | svg2pbm/svg2pbm.py:127-128 | cutting a newline-free text into `line_length` slices, each ended by `'\n'`, gives lines of at most `line_length` characters |
| Strings.RemoveLines | svg2pbm/svg2pbm.py:127-128 | removing the newlines from the wrapped body gives the text without its newlines |
| Pbm.LoadPbm | svg2pbm/svg2pbm.py:41-53 | a loaded file's first line, minus its last byte, is the encoded magic. P1 pixels hold no newline. P4 pixels are `'0'`/`'1'` only. An unknown-format error arises only for a magic other than `P1` and `P4`. A non-ASCII first line, or an ASCII first line with a non-ASCII third line, fails with `NotAscii` |
| Pbm.LoadBody | svg2pbm/svg2pbm.py:47-53 | the body is read according to the magic; a successful result carries that magic. A P4 width field, or a field of an ASCII P1 file, that `int()` refuses raises `BadInteger` |
| Pbm.LoadLines | svg2pbm/svg2pbm.py:42-46 | for three newline-terminated lines and a body, where the first and third are ASCII, the first line is the magic and the second is skipped whatever bytes it holds. A third line that does not split on `' '` into two fields fails with `BadDimensions`; otherwise the body is read with the two fields |
| Pbm.LoadUnknownMagic | svg2pbm/svg2pbm.py:47-52 | an ASCII magic other than `P1` and `P4`, after a comment line of any bytes and a written dimension line, raises `UnknownFormat` |
| Pbm.LoadBadDimensions | svg2pbm/svg2pbm.py:44-45 | a dimension line with other than exactly one space raises, whatever the magic |
| Pbm.LoadPlainBody | svg2pbm/svg2pbm.py:47-53 | for any dimension fields, a P1 body that is not ASCII raises; otherwise a field `int()` refuses raises `BadInteger`, and else the body is read with every `'\n'` removed, with the two fields' values |
| Pbm.LoadRawBody | svg2pbm/svg2pbm.py:49-53 | for any dimension fields, a width field `int()` refuses raises `BadInteger`; a width from -8 to -1 makes `bin2ascii` raise; otherwise the body is unpacked with that width, and then a height field `int()` refuses raises `BadInteger` |
| Pbm.DimensionFieldExamples | svg2pbm/svg2pbm.py:45-53 | `int()` reads the field `"2\r"` of a CRLF file as 2 and `"03"` as 3, and refuses `"x"` |
| Pbm.LoadWritten | svg2pbm/svg2pbm.py:41-53 | a file of the magic line, any one comment line (any bytes but the newline), the line `"{width} {height}"` and a body loads as that body under that magic, with the written width and height |
| Pbm.LoadHeader | svg2pbm/svg2pbm.py:41-53 | the reader parses back the header the writer writes, whatever body follows it |
| Pbm.DimensionsReadBack | svg2pbm/svg2pbm.py:45-53 | the dimension line splits into the two numbers, and `int()` reads each one back |
| Decimal.IntToString | svg2pbm/svg2pbm.py:122 | `f"{n}"`; `Decimal.IntToStringShape` states its shape and `Decimal.ParseIntOfIntToString` its inverse |
| Decimal.ParseInt | svg2pbm/svg2pbm.py:50-53 | `int()` on ASCII text; `Decimal.ParseIntOfIntToString` and `Pbm.DimensionFieldExamples` state what it reads |
| Decimal.IntToStringShape | svg2pbm/svg2pbm.py:122 | `f"{n}"` is non-empty digits ending in a digit, with a leading `'-'` exactly when `n` is negative |
| Decimal.ParseIntOfIntToString | svg2pbm/svg2pbm.py:53 | `int()` reads back what `f"{n}"` wrote, for every integer, with any of the whitespace `int()` strips around it (tab, newline, vertical tab, form feed, carriage return, space) |
| Decimal.ParseStrippedOfIntToString | svg2pbm/svg2pbm.py:53 | with no spaces around it, `int(f"{n}")` is `n`: the sign and the digits are read back |
| Strings.ReadLine | svg2pbm/svg2pbm.py:42-44 | binary `readline()`; `Strings.ReadLineSplits` states where it cuts |
| Strings.ReadLineSplits | svg2pbm/svg2pbm.py:42-44 | `readline()` splits the bytes after the first newline, which it keeps, or takes all the bytes when there is no newline |
| Strings.DropLast | svg2pbm/svg2pbm.py:42-44 | `[:-1]`, the line without its newline; the first ensures of `Pbm.LoadPbm` states that what is left of the first line is the encoded magic |
| Strings.Split | svg2pbm/svg2pbm.py:45 | `split(sep)` gives one more piece than there are separators |
| Strings.SplitPieces | svg2pbm/svg2pbm.py:45-48 | no piece of `split(sep)` holds the separator, and joining the pieces with it gives the text back |
| Strings.SplitJoin | svg2pbm/svg2pbm.py:45 | splitting separator-free pieces joined by the separator gives the pieces back |
| Strings.Concat | svg2pbm/svg2pbm.py:48 | `"".join`, the pieces one after another; `Strings.ConcatSplit` states that joining the pieces of `s.split(c)` gives `s` without its `c` |
| Strings.ConcatSplit | svg2pbm/svg2pbm.py:48 | `"".join(s.split(c))` is `s` with every `c` removed |
| Strings.RemoveAbsent | svg2pbm/svg2pbm.py:48 | after removing every `c` none is left, and a text without `c` is unchanged |
| Strings.EncodeUtf8 | svg2pbm/svg2pbm.py:120-128 | `str.encode()`, one to four bytes per character; `Strings.EncodeAscii` states its ASCII behaviour |
| Strings.EncodeAscii | svg2pbm/svg2pbm.py:120-128 | `str.encode()` gives all-ASCII bytes exactly for ASCII text, which it encodes byte for byte, and gives a newline byte only for a newline character |
| Strings.DecodeAscii | svg2pbm/svg2pbm.py:42-48 | `bytes.decode('ascii')`, one character per byte below 128; `Strings.DecodeEncoded` states that it inverts the encoding of ASCII text |
| Strings.DecodeEncoded | svg2pbm/svg2pbm.py:42-48 | decoding encoded ASCII text as ASCII gives the text back |
| Pbm.WriteLoadPlain | svg2pbm/svg2pbm.py:95-128 | for a positive width, loading the plain file gives the pixel string without its newlines and the written width and height. A string with a non-ASCII character fails to load |
| Pbm.WriteLoadNoLines | svg2pbm/svg2pbm.py:126-128 | a plain write with a negative width writes only the header, which loads with no pixels |
| Pbm.WriteLoadRaw | svg2pbm/svg2pbm.py:120-124 | loading the binary file gives the buffer unpacked with the written width, or the error for widths -8 to -1 |
| Pbm.WriteLoadPixelsWith | svg2pbm/svg2pbm.py:157-163 | for any newline-free comment line, a positive width and whole rows, both formats load back the same pixel string, width and height |
| Pbm.WriteLoadPixels | svg2pbm/svg2pbm.py:157-163 | for a positive width and whole rows, both formats load back the same pixel string, width and height. In binary mode this uses the buffer `ascii2bin(s, width)`, as `convert` passes |
| Pbm.Img2PbmAscii | svg2pbm/svg2pbm.py:89-93 | one pixel per started RGB triple, `ceil(len / 3)` in all. Pixel `i` is `'1'` exactly when byte `3 * i` is at most 1 |

## Left out

- The GUI (`wx.Frame` subclass, `__init__`, the `__main__` block): not part of the codec.
- `convert` and `convert_dir`: they rasterise with cairosvg and threshold with wx through a temporary PNG file. `Pbm.WriteLoadPixels` states the composition `convert` performs on the pixel string.
- File handling (`os.path.isdir`, `os.mkdir`, `open`, `f.write`, `f.read`): the writer returns the file bytes and the reader takes them.
- The unrecognised-mode path of `write_pbm`: an unknown mode writes a `P4` header followed by a plain body. The mode is two-valued here.
- The message text of the exceptions: each exception is one `Error` constructor.
- Pbm.LoadPbm: its `UnknownFormat` error carries the magic, where the source's message names the file; the reader takes the file's bytes and has no file name.
- Encoding errors: `str.encode()` raises `UnicodeEncodeError` on a lone surrogate in the buffer or comment (lines 120-128). A Dafny `char` is a Unicode scalar value, so such strings cannot be represented.
- Decimal.IntToString: has no length limit. CPython 3.11 and later refuse `f"{n}"` and `int(s)` past 4300 digits by default, so a width or height that long raises in the source (lines 50, 53 and 122); `Decimal.ParseInt` has no such limit either.
- Pbm.WritePbmWith: returns only the error when the source raises after the header (lines 124, 127 and 128). By then the source has already written the three header lines to the file.
- Pack.Ascii2Bin: requires a positive width and a string over `'0'`/`'1'`. With width 0 the source raises, and with a negative width it returns an empty buffer. A character other than `'0'`/`'1'` either raises (in `int(byte, 2)`, or in `append` for a negative value) or is accepted by `int(byte, 2)` as a digit, an `_` separator, a sign or whitespace.
- Pack.Bin2Ascii: takes a natural width. Negative widths are covered by `Pack.Bin2AsciiInt`.
- Decimal.ParseInt: only the ASCII forms `int()` accepts are modelled: surrounding whitespace, a sign, and digits with single `_` separators. Its input always comes from an ASCII decode, so the Unicode digits and spaces `int()` also accepts cannot occur. The ASCII separators 28 to 31, for which `str.isspace()` holds, are not stripped by `int()` and are not whitespace here.
- Pbm.Img2PbmAscii: the buffer is a sequence of bytes. The wx image that produces it is not modelled.

=== FILE: bits.dfy ===
/** Bytes and their text form as strings of binary digits: the two
    conversions the codec borrows from Python, `int(s, 2)` and the
    zero-padded binary format `f'{n:08b}'`, and how they invert each other. */
module BitStrings {

  /** One element of a Python `bytes` or `bytearray`. */
  type byte = x: int | 0 <= x < 256

  predicate IsBit(c: char) { c == '0' || c == '1' }

  predicate IsBitString(s: seq<char>) { forall i :: 0 <= i < |s| ==> IsBit(s[i]) }

  function BitChar(on: bool): char { if on then '1' else '0' }

  function Min(a: int, b: int): int { if a < b then a else b }

  function Pow2(k: nat): (p: nat)
    ensures p >= 1
  {
    if k == 0 then 1 else 2 * Pow2(k - 1)
  }

  /** Bit `k` of `n`, counting from the least significant bit. */
  predicate Bit(n: nat, k: nat) { (n / Pow2(k)) % 2 == 1 }

  /** `int(s, 2)`: the value of a string of binary digits, most significant first. */
  function BinValue(s: seq<char>): (v: nat)
    requires IsBitString(s)
    ensures v < Pow2(|s|)
    decreases |s|
  {
    if |s| == 0 then 0
    else 2 * BinValue(s[..|s| - 1]) + (if s[|s| - 1] == '1' then 1 else 0)
  }

  /** `f'{n:0{k}b}'` for `n < 2^k`: the `k` low bits of `n`, most significant first. */
  function Bits(n: nat, k: nat): (s: seq<char>)
    ensures |s| == k
  {
    if k == 0 then [] else Bits(n / 2, k - 1) + [BitChar(n % 2 == 1)]
  }

  lemma {:induction false} BitsAreDigits(n: nat, k: nat)
    ensures IsBitString(Bits(n, k))
  {
    if k > 0 {
      BitsAreDigits(n / 2, k - 1);
    }
  }

  /** `f'{b:08b}'`: the eight bits of a byte, most significant first. */
  function ByteBits(b: byte): (s: seq<char>)
    ensures |s| == 8 && IsBitString(s)
  {
    BitsAreDigits(b, 8);
    Bits(b, 8)
  }

  lemma {:induction false} Pow2Monotonic(j: nat, k: nat)
    requires j <= k
    ensures Pow2(j) <= Pow2(k)
    decreases k
  {
    if j < k {
      Pow2Monotonic(j, k - 1);
    }
  }

  /** `n * d` as repeated addition, which keeps proofs that step by `d` linear. */
  function Times(n: nat, d: nat): nat
  {
    if n == 0 then 0 else d + Times(n - 1, d)
  }

  lemma {:induction false} TimesIsMul(n: nat, d: nat)
    ensures Times(n, d) == n * d
  {
    if n > 0 {
      TimesIsMul(n - 1, d);
    }
  }

  /** Division with remainder has one answer. */
  lemma DivModUnique(a: nat, d: nat, q: nat, r: nat)
    requires 0 <= r < d && a == d * q + r
    ensures a / d == q && a % d == r
  {
    var q' := a / d;
    assert a == d * q' + a % d;
    if q' < q {
      MulMonotonic(d, q' + 1, q);
      assert false;
    } else if q < q' {
      MulMonotonic(d, q + 1, q');
      assert false;
    }
  }

  lemma MulMonotonic(d: nat, x: nat, y: nat)
    requires x <= y
    ensures d * x <= d * y
  {
  }

  lemma HalveThenDivide(n: nat, p: nat)
    requires p >= 1
    ensures (n / 2) / p == n / (2 * p)
    ensures 2 * ((n / 2) % p) + n % 2 == n % (2 * p)
  {
    var t, u := (n / 2) / p, (n / 2) % p;
    assert n / 2 == p * t + u;
    assert n == (2 * p) * t + (2 * u + n % 2);
    DivModUnique(n, 2 * p, t, 2 * u + n % 2);
  }

  /** `Bits(n, k)` keeps the low `k` bits of `n`, so reading them back
      with `int(_, 2)` gives `n` modulo `2^k`. Python's format would print
      more digits for `n >= 2^k`; `BitsRoundTrip` is the case it models. */
  lemma {:induction false} BinValueOfBits(n: nat, k: nat)
    ensures IsBitString(Bits(n, k)) && BinValue(Bits(n, k)) == n % Pow2(k)
  {
    BitsAreDigits(n, k);
    if k > 0 {
      var s := Bits(n, k);
      assert s[..k - 1] == Bits(n / 2, k - 1);
      BinValueOfBits(n / 2, k - 1);
      HalveThenDivide(n, Pow2(k - 1));
    }
  }

  /** Formatting the value of a digit string to its own length gives the string back. */
  lemma {:induction false} BitsOfBinValue(s: seq<char>)
    requires IsBitString(s)
    ensures Bits(BinValue(s), |s|) == s
    decreases |s|
  {
    if |s| > 0 {
      var init := s[..|s| - 1];
      BitsOfBinValue(init);
      assert BinValue(s) / 2 == BinValue(init);
      assert s == init + [s[|s| - 1]];
    }
  }

  /** Character `i` of the `k`-digit form of `n` is bit `k - 1 - i` of `n`. */
  lemma {:induction false} BitsAt(n: nat, k: nat, i: nat)
    requires i < k
    ensures Bits(n, k)[i] == BitChar(Bit(n, k - 1 - i))
  {
    if i < k - 1 {
      BitsAt(n / 2, k - 1, i);
      HalveThenDivide(n, Pow2(k - 2 - i));
    }
  }

  lemma ByteRoundTrip(b: byte)
    ensures BinValue(ByteBits(b)) == b
  {
    Pow2Byte();
    BitsRoundTrip(b, 8);
  }

  lemma Pow2Byte()
    ensures Pow2(8) == 256
  {
  }

  /** A number below `2^k` is read back from its `k` binary digits. */
  lemma {:induction false} BitsRoundTrip(n: nat, k: nat)
    requires n < Pow2(k)
    ensures IsBitString(Bits(n, k)) && BinValue(Bits(n, k)) == n
  {
    BinValueOfBits(n, k);
    DivModUnique(n, Pow2(k), 0, n);
  }
}

=== FILE: decimal.dfy ===
/** Decimal integers as the writer formats them (`f"{n}"`) and as the
    reader parses them back (`int(s)`). The reader only ever parses text
    it decoded as ASCII, so `int()`'s treatment of non-ASCII digits and
    spaces does not arise. */
module Decimal {
  import opened Results
  import opened Strings

  predicate IsDigit(c: char) { '0' <= c <= '9' }

  predicate AllDigits(s: seq<char>) { forall i :: 0 <= i < |s| ==> IsDigit(s[i]) }

  function DigitChar(d: nat): char
    requires d < 10
  {
    ('0' as int + d) as char
  }

  /** `f"{n}"` for `n >= 0`: decimal digits without leading zeros. */
  function NatToString(n: nat): seq<char>
    decreases n
  {
    if n < 10 then [DigitChar(n)] else NatToString(n / 10) + [DigitChar(n % 10)]
  }

  /** The digits of a natural number: at least one, and a leading zero
      only for zero itself. */
  lemma {:induction false} NatToStringShape(n: nat)
    ensures |NatToString(n)| > 0 && AllDigits(NatToString(n))
    ensures NatToString(n)[0] == '0' ==> n == 0 && |NatToString(n)| == 1
    decreases n
  {
    if n >= 10 {
      NatToStringShape(n / 10);
      assert NatToString(n)[0] == NatToString(n / 10)[0];
    }
  }

  /** `f"{n}"`: a minus sign before the digits of a negative number. */
  function IntToString(n: int): seq<char>
  {
    if n < 0 then "-" + NatToString(-n) else NatToString(n)
  }

  /** The formatted number is digits, ending in one, with a minus sign in
      front exactly when the number is negative. */
  lemma IntToStringShape(n: int)
    ensures |IntToString(n)| > 0 && IsDigit(IntToString(n)[|IntToString(n)| - 1])
    ensures forall i :: 0 <= i < |IntToString(n)| ==>
              IsDigit(IntToString(n)[i]) || (i == 0 && IntToString(n)[i] == '-' && n < 0)
    ensures n < 0 <==> IntToString(n)[0] == '-'
  {
    NatToStringShape(if n < 0 then -n else n);
  }

  /** The formatted number is ASCII text free of spaces and newlines. */
  lemma IntToStringText(n: int)
    ensures IsAsciiText(IntToString(n))
    ensures ' ' !in IntToString(n) && '\n' !in IntToString(n)
  {
    IntToStringShape(n);
    var s := IntToString(n);
    assert forall i :: 0 <= i < |s| ==> IsDigit(s[i]) || s[i] == '-';
  }

  /** The value of a string of decimal digits, most significant first. */
  function DigitsValue(s: seq<char>): int
    decreases |s|
  {
    if |s| == 0 then 0 else 10 * DigitsValue(s[..|s| - 1]) + (s[|s| - 1] as int - '0' as int)
  }

  lemma {:induction false} DigitsValueOfNatToString(n: nat)
    ensures DigitsValue(NatToString(n)) == n
    decreases n
  {
    if n >= 10 {
      DigitsValueOfNatToString(n / 10);
      var s := NatToString(n);
      assert s[..|s| - 1] == NatToString(n / 10);
    }
  }

  /** The whitespace `int()` ignores around an ASCII argument: the space and
      the C `isspace` controls tab, newline, vertical tab, form feed and
      carriage return. The separators 28 to 31, which `str.isspace()` also
      accepts, are not stripped: `int()` refuses them. */
  predicate IsSpace(c: char)
  {
    c == ' ' || 9 <= c as int <= 13
  }

  function StripStart(s: seq<char>): seq<char>
    decreases |s|
  {
    if |s| > 0 && IsSpace(s[0]) then StripStart(s[1..]) else s
  }

  function StripEnd(s: seq<char>): seq<char>
    decreases |s|
  {
    if |s| > 0 && IsSpace(s[|s| - 1]) then StripEnd(s[..|s| - 1]) else s
  }

  /** Decimal digits, optionally grouped by single underscores between
      digits, as `int()` accepts them. */
  predicate IsDigitGroups(t: seq<char>)
  {
    && |t| > 0
    && IsDigit(t[0])
    && IsDigit(t[|t| - 1])
    && (forall i :: 0 <= i < |t| ==> IsDigit(t[i]) || t[i] == '_')
    && (forall i :: 0 < i < |t| && t[i] == '_' ==> t[i - 1] != '_')
  }

  /** `int(s)` on ASCII text: surrounding spaces, then an optional sign, then
      the digits; anything else raises, modelled as `None`. */
  function ParseInt(s: seq<char>): Option<int>
  {
    ParseStripped(StripEnd(StripStart(s)))
  }

  /** `int()` once the surrounding spaces are gone: an optional sign, then
      the digits. */
  function ParseStripped(t: seq<char>): Option<int>
  {
    if |t| > 0 && (t[0] == '+' || t[0] == '-') then
      if IsDigitGroups(t[1..]) then
        var v := DigitsValue(Remove(t[1..], '_'));
        Some(if t[0] == '-' then -v else v)
      else None
    else if IsDigitGroups(t) then Some(DigitsValue(Remove(t, '_')))
    else None
  }

  lemma {:induction false} StripStartSpaces(pre: seq<char>, s: seq<char>)
    requires forall i :: 0 <= i < |pre| ==> IsSpace(pre[i])
    requires |s| > 0 && !IsSpace(s[0])
    ensures StripStart(pre + s) == s
    decreases |pre|
  {
    if |pre| > 0 {
      assert (pre + s)[1..] == pre[1..] + s;
      StripStartSpaces(pre[1..], s);
    } else {
      assert pre + s == s;
    }
  }

  lemma {:induction false} StripEndSpaces(s: seq<char>, post: seq<char>)
    requires forall i :: 0 <= i < |post| ==> IsSpace(post[i])
    requires |s| > 0 && !IsSpace(s[|s| - 1])
    ensures StripEnd(s + post) == s
    decreases |post|
  {
    if |post| > 0 {
      var shorter := post[..|post| - 1];
      assert (s + post)[..|s + post| - 1] == s + shorter;
      StripEndSpaces(s, shorter);
    } else {
      assert s + post == s;
    }
  }

  lemma StripAround(pre: seq<char>, s: seq<char>, post: seq<char>)
    requires forall i :: 0 <= i < |pre| ==> IsSpace(pre[i])
    requires forall i :: 0 <= i < |post| ==> IsSpace(post[i])
    requires |s| > 0 && !IsSpace(s[0]) && !IsSpace(s[|s| - 1])
    ensures StripEnd(StripStart(pre + s + post)) == s
  {
    assert pre + s + post == pre + (s + post);
    StripStartSpaces(pre, s + post);
    StripEndSpaces(s, post);
  }

  lemma DigitsAreGroups(digits: seq<char>)
    requires |digits| > 0 && AllDigits(digits)
    ensures IsDigitGroups(digits)
    ensures Remove(digits, '_') == digits
  {
    RemoveAbsent(digits, '_');
  }

  /** `int()` reads back what `f"{n}"` wrote, whatever spaces surround it
      (a carriage return before the newline of a dimension line, say). */
  lemma ParseIntOfIntToString(pre: seq<char>, n: int, post: seq<char>)
    requires forall i :: 0 <= i < |pre| ==> IsSpace(pre[i])
    requires forall i :: 0 <= i < |post| ==> IsSpace(post[i])
    ensures ParseInt(pre + IntToString(n) + post) == Some(n)
  {
    var s := IntToString(n);
    IntToStringShape(n);
    StripAround(pre, s, post);
    ParseStrippedOfIntToString(n);
  }

  /** Without surrounding spaces, `int()` reads `f"{n}"` back as `n`. */
  lemma ParseStrippedOfIntToString(n: int)
    ensures ParseStripped(IntToString(n)) == Some(n)
  {
    var m: nat := if n < 0 then -n else n;
    NatToStringShape(m);
    DigitsValueOfNatToString(m);
    if n < 0 {
      ParseStrippedNegative(NatToString(m));
    } else {
      ParseStrippedDigits(NatToString(m));
    }
  }

  /** Unsigned digits are read as their value. */
  lemma ParseStrippedDigits(digits: seq<char>)
    requires |digits| > 0 && AllDigits(digits)
    ensures ParseStripped(digits) == Some(DigitsValue(digits))
  {
    DigitsAreGroups(digits);
    assert IsDigit(digits[0]);
  }

  /** Digits after a minus sign are read as the negated value. */
  lemma ParseStrippedNegative(digits: seq<char>)
    requires |digits| > 0 && AllDigits(digits)
    ensures ParseStripped("-" + digits) == Some(-DigitsValue(digits))
  {
    var t := "-" + digits;
    assert t[1..] == digits;
    DigitsAreGroups(t[1..]);
    assert |t| > 0 && t[0] == '-';
  }
}

=== FILE: pack.dfy ===
/** The two row-repacking primitives of svg2pbm: `ascii2bin` packs a
    row-major string of '0'/'1' pixels into bytes, and `bin2ascii` unpacks
    them again.

    Every row of `width` pixels is followed by `8 - width % 8` zero bits, so
    a row always takes `width / 8 + 1` bytes. Netpbm's raw PBM format asks
    for `ceil(width / 8)` bytes per row instead: the two agree except when
    `width` is a multiple of 8, where this codec writes one extra zero byte
    per row. The pair is still mutually inverse under its own rule. */
module Pack {
  import opened BitStrings
  import opened Results
  import opened Sequences

  /** `refiller`: the number of zero bits after each row, between 1 and 8. */
  function Refiller(width: int): int { 8 - width % 8 }

  /** The bytes one row takes in the binary body as this codec lays it out. */
  function RowBytes(width: nat): nat { width / 8 + 1 }

  function RowBits(width: nat): nat { 8 * RowBytes(width) }

  lemma RowLayout(width: nat)
    ensures width + Refiller(width) == RowBits(width)
    ensures width < RowBits(width)
  {
  }

  function Zeros(n: nat): seq<char> { seq(n, _ => '0') }

  // ---------------------------------------------------------------------
  // ascii2bin

  /** `rbuffer` of `ascii2bin`: each slice of `width` pixels (the last one
      may be shorter) followed by the refill zeros. */
  function PadRows(s: seq<char>, width: nat): seq<char>
    requires width > 0
    decreases |s|
  {
    if |s| == 0 then []
    else if |s| <= width then s + Zeros(Refiller(width))
    else s[..width] + Zeros(Refiller(width)) + PadRows(s[width..], width)
  }

  /** Padding adds only '0' digits. */
  lemma {:induction false} PadRowsBits(s: seq<char>, width: nat)
    requires width > 0 && IsBitString(s)
    ensures IsBitString(PadRows(s, width))
    decreases |s|
  {
    if |s| > width {
      PadRowsBits(s[width..], width);
    }
  }

  /** The `while` loop of `ascii2bin`: every slice of 8 digits (the last one
      may be shorter) becomes the byte `int(slice, 2)`. */
  function PackBits(r: seq<char>): (bs: seq<byte>)
    requires IsBitString(r)
    ensures |bs| == (|r| + 7) / 8
    decreases |r|
  {
    if |r| == 0 then []
    else if |r| <= 8 then
      Pow2Monotonic(|r|, 8);
      [BinValue(r)]
    else
      [BinValue(r[..8])] + PackBits(r[8..])
  }

  function Ascii2Bin(s: seq<char>, width: nat): (bs: seq<byte>)
    requires width > 0 && IsBitString(s)
  {
    PadRowsBits(s, width);
    PackBits(PadRows(s, width))
  }

  // ---------------------------------------------------------------------
  // bin2ascii

  /** `buffer` of `bin2ascii`: the eight digits of every byte, in order. */
  function Expand(bs: seq<byte>): (s: seq<char>)
    ensures |s| == 8 * |bs|
  {
    if |bs| == 0 then [] else ByteBits(bs[0]) + Expand(bs[1..])
  }

  lemma {:induction false} ExpandBits(bs: seq<byte>)
    ensures IsBitString(Expand(bs))
  {
    if |bs| > 0 {
      ExpandBits(bs[1..]);
      var e := Expand(bs);
      assert e == ByteBits(bs[0]) + Expand(bs[1..]);
      assert forall i :: 8 <= i < |e| ==> e[i] == Expand(bs[1..])[i - 8];
    }
  }

  /** The second loop of `bin2ascii`: from every group of `width + refiller`
      digits keep the first `width` (fewer if the group is cut short). For
      a natural width the step `width + refiller` is `RowBits(width)`
      (`RowLayout`), which is how it is written here. */
  function KeepRows(buf: seq<char>, width: nat): (r: seq<char>)
    ensures |r| <= |buf|
    decreases |buf|
  {
    var step := RowBits(width);
    if |buf| == 0 then []
    else if |buf| <= step then buf[..Min(width, |buf|)]
    else buf[..width] + KeepRows(buf[step..], width)
  }

  /** Keeping digits of a digit string gives a digit string. */
  lemma {:induction false} KeepRowsBits(buf: seq<char>, width: nat)
    requires IsBitString(buf)
    ensures IsBitString(KeepRows(buf, width))
    decreases |buf|
  {
    var step := RowBits(width);
    if |buf| > step {
      KeepRowsBits(buf[step..], width);
      var k := KeepRows(buf, width);
      var rest := KeepRows(buf[step..], width);
      assert k == buf[..width] + rest;
      assert forall i :: width <= i < |k| ==> k[i] == rest[i - width];
    }
  }

  function Bin2Ascii(b: seq<byte>, width: nat): (s: seq<char>)
    ensures IsBitString(s)
    ensures |s| <= 8 * |b|
  {
    ExpandBits(b);
    KeepRowsBits(Expand(b), width);
    KeepRows(Expand(b), width)
  }

  /** `bin2ascii` for any integer width, as `loadpbm` calls it with the
      width it parsed: the loop's step `width + refiller` is 0 for widths
      -8 to -1, so `range` raises, and negative below that, so the loop is
      empty. */
  function Bin2AsciiInt(b: seq<byte>, width: int): (r: Result<seq<char>>)
    ensures width >= 0 ==> r == Ok(Bin2Ascii(b, width))
    ensures r.Err? <==> -8 <= width < 0
    ensures r.Err? ==> r.error == ZeroStep
    ensures width < -8 ==> r == Ok([])
  {
    var step := width + Refiller(width);
    if step == 0 then Err(ZeroStep)
    else if step < 0 then Ok([])
    else Ok(Bin2Ascii(b, width))
  }

  // ---------------------------------------------------------------------
  // Layout of the padded rows

  /** In every row of `RowBits(width)` digits of `buf`, each digit after
      the first `width` is '0': the padding bits are clear. */
  predicate RowsPadded(buf: seq<char>, width: nat)
    decreases |buf|
  {
    if |buf| <= RowBits(width) then
      forall j :: width <= j < |buf| ==> buf[j] == '0'
    else
      (forall j :: width <= j < RowBits(width) ==> buf[j] == '0')
      && RowsPadded(buf[RowBits(width)..], width)
  }

  /** Every padding bit of the binary body `b` is 0. */
  predicate PaddingClear(b: seq<byte>, width: nat)
  {
    RowsPadded(Expand(b), width)
  }

  lemma {:induction false} TimesScale(n: nat, d: nat)
    ensures Times(n, 8 * d) == 8 * Times(n, d)
  {
    if n > 0 {
      TimesScale(n - 1, d);
    }
  }

  lemma {:induction false} RowIndexBound(n: nat, r: nat, d: nat, j: nat)
    requires r < n && j < d
    ensures Times(r, d) + j < Times(n, d)
  {
    if r + 1 < n {
      RowIndexBound(n - 1, r, d, j);
    }
    else if r > 0 {
      RowIndexBound(n - 1, r - 1, d, j);
    }
  }

  /** A buffer longer than one row keeps that row's first `width` digits
      and goes on with the next row. */
  lemma KeepRowsCons(buf: seq<char>, width: nat)
    requires |buf| > RowBits(width)
    ensures KeepRows(buf, width) == buf[..width] + KeepRows(buf[RowBits(width)..], width)
  {
    RowLayout(width);
  }

  /** A pixel string longer than one row pads that row and goes on with
      the next one; the padded row is `RowBits(width)` digits long. */
  lemma PadRowsCons(s: seq<char>, width: nat)
    requires width > 0 && |s| > width
    ensures PadRows(s, width)[..width] == s[..width]
    ensures PadRows(s, width)[RowBits(width)..] == PadRows(s[width..], width)
    ensures |PadRows(s, width)| == RowBits(width) + |PadRows(s[width..], width)|
  {
    RowLayout(width);
    var z := Zeros(Refiller(width));
    var p := PadRows(s, width);
    assert p == s[..width] + z + PadRows(s[width..], width);
    assert |s[..width] + z| == RowBits(width);
  }

  /** The first padded row is the first `width` pixels and the refill zeros. */
  lemma PadRowsFirst(s: seq<char>, width: nat)
    requires width > 0 && |s| >= width
    ensures |PadRows(s, width)| >= RowBits(width)
    ensures PadRows(s, width)[..RowBits(width)] == s[..width] + Zeros(Refiller(width))
  {
    RowLayout(width);
    var z := Zeros(Refiller(width));
    if |s| == width {
      assert PadRows(s, width) == s[..width] + z;
    } else {
      assert PadRows(s, width) == (s[..width] + z) + PadRows(s[width..], width);
    }
  }

  /** `n` whole rows of pixels pad to `n` rows of `RowBits(width)` digits. */
  lemma {:induction false} PadRowsLength(s: seq<char>, width: nat, n: nat)
    requires width > 0 && |s| == Times(n, width)
    ensures |PadRows(s, width)| == Times(n, RowBits(width))
    decreases n
  {
    RowLayout(width);
    if n > 1 {
      PadRowsLength(s[width..], width, n - 1);
    }
  }

  /** Digit `j` of padded row `r` is pixel `j` of row `r`, or a 0 past the row's end. */
  lemma {:induction false} PadRowsAt(s: seq<char>, width: nat, n: nat, r: nat, j: nat)
    requires width > 0 && |s| == Times(n, width) && r < n && j < RowBits(width)
    ensures Times(r, RowBits(width)) + j < |PadRows(s, width)|
    ensures j < width ==> Times(r, width) + j < |s|
    ensures PadRows(s, width)[Times(r, RowBits(width)) + j]
            == if j < width then s[Times(r, width) + j] else '0'
    decreases r
  {
    var step := RowBits(width);
    if r == 0 {
      RowIndexBound(n, 0, width, 0);
      PadRowsFirstAt(s, width, j);
    } else {
      var rest := s[width..];
      RowIndexBound(n - 1, r - 1, width, 0);
      var k := Times(r - 1, step) + j;
      PadRowsAt(rest, width, n - 1, r - 1, j);
      PadRowsStep(s, width, k);
      assert Times(r, step) + j == step + k;
      if j < width {
        var x := Times(r - 1, width) + j;
        assert Times(r, width) + j == width + x;
        assert rest[x] == s[width + x];
      }
    }
  }

  /** Past the first padded row come the padded rows of the remaining pixels. */
  lemma PadRowsStep(s: seq<char>, width: nat, k: nat)
    requires width > 0 && |s| > width && k < |PadRows(s[width..], width)|
    ensures RowBits(width) + k < |PadRows(s, width)|
    ensures PadRows(s, width)[RowBits(width) + k] == PadRows(s[width..], width)[k]
  {
    PadRowsCons(s, width);
    assert PadRows(s, width)[RowBits(width) + k] == PadRows(s, width)[RowBits(width)..][k];
  }

  lemma PadRowsFirstAt(s: seq<char>, width: nat, j: nat)
    requires width > 0 && |s| >= width && j < RowBits(width)
    ensures j < |PadRows(s, width)|
    ensures PadRows(s, width)[j] == if j < width then s[j] else '0'
  {
    PadRowsFirst(s, width);
    var z := Zeros(Refiller(width));
    assert PadRows(s, width)[j] == (s[..width] + z)[j];
    if j >= width {
      assert (s[..width] + z)[j] == z[j - width];
    }
  }

  /** Padded rows have their padding clear. */
  lemma {:induction false} PadRowsPadded(s: seq<char>, width: nat, n: nat)
    requires width > 0 && |s| == Times(n, width)
    ensures RowsPadded(PadRows(s, width), width)
    decreases n
  {
    RowLayout(width);
    var p := PadRows(s, width);
    if n > 1 {
      PadRowsLength(s[width..], width, n - 1);
      PadRowsPadded(s[width..], width, n - 1);
      assert p[RowBits(width)..] == PadRows(s[width..], width);
    }
  }

  lemma {:induction false} KeepRowsLength(buf: seq<char>, width: nat, n: nat)
    requires |buf| == Times(n, RowBits(width))
    ensures |KeepRows(buf, width)| == Times(n, width)
    decreases n
  {
    RowLayout(width);
    if n > 1 {
      KeepRowsLength(buf[RowBits(width)..], width, n - 1);
    }
  }

  /** Kept digit `j` of row `r` is digit `j` of row `r` of the buffer. */
  lemma {:induction false} KeepRowsAt(buf: seq<char>, width: nat, n: nat, r: nat, j: nat)
    requires |buf| == Times(n, RowBits(width)) && r < n && j < width
    ensures Times(r, width) + j < |KeepRows(buf, width)|
    ensures Times(r, RowBits(width)) + j < |buf|
    ensures KeepRows(buf, width)[Times(r, width) + j] == buf[Times(r, RowBits(width)) + j]
    decreases r
  {
    var step := RowBits(width);
    RowIndexBound(n, r, step, j);
    if r == 0 {
      RowIndexBound(n, 0, step, 0);
      KeepRowsFirstAt(buf, width, j);
    } else {
      var k, m := Times(r - 1, width) + j, Times(r - 1, step) + j;
      RowIndexBound(n - 1, r - 1, step, j);
      KeepRowsAt(buf[step..], width, n - 1, r - 1, j);
      KeepRowsStep(buf, width, k);
      assert Times(r, width) + j == width + k;
      assert Times(r, step) + j == step + m;
      assert buf[step..][m] == buf[step + m];
    }
  }

  lemma KeepRowsFirstAt(buf: seq<char>, width: nat, j: nat)
    requires j < width && |buf| >= RowBits(width)
    ensures j < |KeepRows(buf, width)| && KeepRows(buf, width)[j] == buf[j]
  {
    RowLayout(width);
    if |buf| > RowBits(width) {
      KeepRowsCons(buf, width);
    }
  }

  /** Past the first kept row come the kept rows of the remaining buffer. */
  lemma KeepRowsStep(buf: seq<char>, width: nat, k: nat)
    requires |buf| > RowBits(width) && k < |KeepRows(buf[RowBits(width)..], width)|
    ensures width + k < |KeepRows(buf, width)|
    ensures KeepRows(buf, width)[width + k] == KeepRows(buf[RowBits(width)..], width)[k]
  {
    RowLayout(width);
    KeepRowsCons(buf, width);
    IndexAfter(buf[..width], KeepRows(buf[RowBits(width)..], width), width + k);
  }

  /** Keeping the first `width` digits of each padded row restores the rows. */
  lemma {:induction false} KeepRowsOfPadRows(s: seq<char>, width: nat, n: nat)
    requires width > 0 && |s| == Times(n, width)
    ensures KeepRows(PadRows(s, width), width) == s
    decreases n
  {
    RowLayout(width);
    var p := PadRows(s, width);
    if n == 1 {
      assert p == s + Zeros(Refiller(width));
      assert KeepRows(p, width) == p[..width];
    } else if n > 1 {
      var rest := s[width..];
      RowIndexBound(n - 1, 0, width, 0);
      PadRowsLength(rest, width, n - 1);
      KeepRowsOfPadRows(rest, width, n - 1);
      PadRowsCons(s, width);
      KeepRowsCons(p, width);
      SplitAt(s, width);
    }
  }

  /** Padding the kept digits again restores a buffer whose padding is clear. */
  lemma {:induction false} PadRowsOfKeepRows(buf: seq<char>, width: nat, n: nat)
    requires width > 0 && |buf| == Times(n, RowBits(width)) && RowsPadded(buf, width)
    ensures PadRows(KeepRows(buf, width), width) == buf
    decreases n
  {
    var step := RowBits(width);
    RowLayout(width);
    if n == 1 {
      assert buf == buf[..width] + Zeros(Refiller(width));
    } else if n > 1 {
      var rest := buf[step..];
      RowIndexBound(n - 1, 0, step, 0);
      KeepRowsLength(rest, width, n - 1);
      PadRowsOfKeepRows(rest, width, n - 1);
      KeepRowsCons(buf, width);
      var k := KeepRows(buf, width);
      RowIndexBound(n - 1, 0, width, 0);
      PadRowsCons(k, width);
      assert k[..width] == buf[..width];
      assert k[width..] == KeepRows(rest, width);
      var p := PadRows(k, width);
      assert p[..step] == buf[..width] + Zeros(Refiller(width)) == buf[..step];
      SplitAt(p, step);
      SplitAt(buf, step);
    }
  }

  // ---------------------------------------------------------------------
  // Bytes and digits

  lemma {:induction false} ExpandAt(bs: seq<byte>, i: nat, t: nat)
    requires i < |bs| && t < 8
    ensures Expand(bs)[8 * i + t] == ByteBits(bs[i])[t]
    decreases i
  {
    if i > 0 {
      ExpandAt(bs[1..], i - 1, t);
    }
  }

  /** Unpacking the packed bytes of a whole number of bytes' worth of digits gives them back. */
  lemma {:induction false} ExpandOfPackBits(r: seq<char>, m: nat)
    requires IsBitString(r) && |r| == 8 * m
    ensures Expand(PackBits(r)) == r
    decreases m
  {
    if m > 0 {
      var head := r[..8];
      BitsOfBinValue(head);
      var bs := PackBits(r);
      if m == 1 {
        assert head == r;
      }
      assert bs[0] == BinValue(head);
      if m > 1 {
        ExpandOfPackBits(r[8..], m - 1);
        assert bs[1..] == PackBits(r[8..]);
      } else {
        assert bs[1..] == [];
      }
      assert r == head + r[8..];
    }
  }

  lemma {:induction false} PackBitsOfExpand(bs: seq<byte>)
    ensures IsBitString(Expand(bs)) && PackBits(Expand(bs)) == bs
  {
    ExpandBits(bs);
    if |bs| > 0 {
      var head, tail := ByteBits(bs[0]), Expand(bs[1..]);
      assert Expand(bs) == head + tail;
      ExpandBits(bs[1..]);
      PackBitsOfExpand(bs[1..]);
      ByteRoundTrip(bs[0]);
      PackBitsCons(head, tail);
      assert bs == [bs[0]] + bs[1..];
    }
  }

  /** Eight digits in front pack into one byte in front. */
  lemma PackBitsCons(head: seq<char>, tail: seq<char>)
    requires |head| == 8 && IsBitString(head) && IsBitString(tail)
    ensures IsBitString(head + tail)
    ensures PackBits(head + tail) == [BinValue(head)] + PackBits(tail)
  {
    var r := head + tail;
    assert r[..8] == head && r[8..] == tail;
    if |tail| == 0 {
      assert r == head;
    }
  }

  // ---------------------------------------------------------------------
  // Properties of ascii2bin and bin2ascii

  /** `len` splits into `len / width` whole rows of `width`. */
  lemma WholeRows(len: nat, width: nat)
    requires width > 0 && len % width == 0
    ensures len == Times(len / width, width)
  {
    TimesIsMul(len / width, width);
  }

  /** Padding `n` whole rows gives whole bytes, which unpack back to the padded digits. */
  lemma PackedRows(s: seq<char>, width: nat, n: nat)
    requires width > 0 && IsBitString(s) && |s| == Times(n, width)
    ensures |Ascii2Bin(s, width)| == Times(n, RowBytes(width))
    ensures Expand(Ascii2Bin(s, width)) == PadRows(s, width)
  {
    PadRowsLength(s, width, n);
    TimesScale(n, RowBytes(width));
    PadRowsBits(s, width);
    ExpandOfPackBits(PadRows(s, width), Times(n, RowBytes(width)));
  }

  /** Each row of pixels takes `width / 8 + 1` bytes. */
  lemma Ascii2BinLength(s: seq<char>, width: nat)
    requires width > 0 && IsBitString(s) && |s| % width == 0
    ensures |Ascii2Bin(s, width)| == |s| / width * RowBytes(width)
  {
    WholeRows(|s|, width);
    PackedRows(s, width, |s| / width);
    TimesIsMul(|s| / width, RowBytes(width));
  }

  /** Byte `Times(r, RowBytes) + j / 8`, bit `j % 8`, is digit `j` of row `r` in the expanded buffer. */
  lemma ByteOfRowDigit(r: nat, width: nat, j: nat)
    requires j < RowBits(width)
    ensures 8 * (Times(r, RowBytes(width)) + j / 8) + j % 8 == Times(r, RowBits(width)) + j
  {
    TimesScale(r, RowBytes(width));
  }

  /** Digit `j % 8` of byte `Times(r, RowBytes) + j / 8` of the packed bytes is digit `j` of padded row `r`. */
  lemma Ascii2BinDigit(s: seq<char>, width: nat, n: nat, r: nat, j: nat)
    requires width > 0 && IsBitString(s) && |s| == Times(n, width)
    requires r < n && j < RowBits(width)
    ensures Times(r, RowBytes(width)) + j / 8 < |Ascii2Bin(s, width)|
    ensures j < width ==> Times(r, width) + j < |s|
    ensures ByteBits(Ascii2Bin(s, width)[Times(r, RowBytes(width)) + j / 8])[j % 8]
            == if j < width then s[Times(r, width) + j] else '0'
  {
    var out := Ascii2Bin(s, width);
    var i := Times(r, RowBytes(width)) + j / 8;
    var pos := Times(r, RowBits(width)) + j;
    PackedRows(s, width, n);
    RowIndexBound(n, r, RowBytes(width), j / 8);
    ByteOfRowDigit(r, width, j);
    ExpandAt(out, i, j % 8);
    assert ByteBits(out[i])[j % 8] == Expand(out)[pos];
    PadRowsAt(s, width, n, r, j);
  }

  /** Packing is most significant bit first: pixel `j` of row `r` is bit
      `7 - j % 8` of byte `r * RowBytes(width) + j / 8` (written with
      `Times`, which is multiplication by `TimesIsMul`; `Ascii2BinPixelBit`
      states it with `*`), and the bits past the row's end are 0. */
  lemma {:induction false} Ascii2BinBitOrder(s: seq<char>, width: nat, n: nat, r: nat, j: nat)
    requires width > 0 && IsBitString(s) && |s| == Times(n, width)
    requires r < n && j < RowBits(width)
    ensures Times(r, RowBytes(width)) + j / 8 < |Ascii2Bin(s, width)|
    ensures j < width ==> Times(r, width) + j < |s|
    ensures Bit(Ascii2Bin(s, width)[Times(r, RowBytes(width)) + j / 8], 7 - j % 8)
            == (j < width && s[Times(r, width) + j] == '1')
  {
    Ascii2BinDigit(s, width, n, r, j);
    var x := Ascii2Bin(s, width)[Times(r, RowBytes(width)) + j / 8];
    BitsAt(x, 8, j % 8);
    if j < width {
      assert IsBit(s[Times(r, width) + j]);
    }
  }

  /** `Ascii2BinBitOrder` with the byte index as a product: for a pixel
      string of whole rows, pixel `j` of row `r` is bit `7 - j % 8` of byte
      `r * (width / 8 + 1) + j / 8`, and the padding bits are 0. */
  lemma Ascii2BinPixelBit(s: seq<char>, width: nat, r: nat, j: nat)
    requires width > 0 && IsBitString(s) && |s| % width == 0
    requires r < |s| / width && j < 8 * (width / 8 + 1)
    ensures && 0 <= r * (width / 8 + 1) + j / 8 < |Ascii2Bin(s, width)|
            && (j < width ==> 0 <= r * width + j < |s|)
            && Bit(Ascii2Bin(s, width)[r * (width / 8 + 1) + j / 8], 7 - j % 8)
               == (j < width && s[r * width + j] == '1')
  {
    WholeRows(|s|, width);
    Ascii2BinBitOrder(s, width, |s| / width, r, j);
    TimesIsMul(r, RowBytes(width));
    TimesIsMul(r, width);
  }

  /** Each row of `width / 8 + 1` bytes unpacks to `width` pixels. */
  lemma Bin2AsciiLength(b: seq<byte>, width: nat)
    requires |b| % RowBytes(width) == 0
    ensures |Bin2Ascii(b, width)| == |b| / RowBytes(width) * width
  {
    var n := |b| / RowBytes(width);
    WholeRows(|b|, RowBytes(width));
    TimesScale(n, RowBytes(width));
    KeepRowsLength(Expand(b), width, n);
    TimesIsMul(n, width);
  }

  /** Kept digit `j` of row `r` is digit `j % 8` of byte `Times(r, RowBytes) + j / 8`. */
  lemma Bin2AsciiDigit(b: seq<byte>, width: nat, n: nat, r: nat, j: nat)
    requires |b| == Times(n, RowBytes(width)) && r < n && j < width
    ensures Times(r, width) + j < |Bin2Ascii(b, width)|
    ensures Times(r, RowBytes(width)) + j / 8 < |b|
    ensures Bin2Ascii(b, width)[Times(r, width) + j] == ByteBits(b[Times(r, RowBytes(width)) + j / 8])[j % 8]
  {
    TimesScale(n, RowBytes(width));
    RowLayout(width);
    KeepRowsAt(Expand(b), width, n, r, j);
    RowIndexBound(n, r, RowBytes(width), j / 8);
    ByteOfRowDigit(r, width, j);
    ExpandAt(b, Times(r, RowBytes(width)) + j / 8, j % 8);
  }

  /** Unpacking is most significant bit first and keeps only the first
      `width` bits of each row: pixel `j` of row `r` is bit `7 - j % 8` of
      byte `r * RowBytes(width) + j / 8`, written with `Times`
      (`Bin2AsciiPixelBit` states it with `*`). */
  lemma {:induction false} Bin2AsciiBitOrder(b: seq<byte>, width: nat, n: nat, r: nat, j: nat)
    requires |b| == Times(n, RowBytes(width))
    requires r < n && j < width
    ensures Times(r, width) + j < |Bin2Ascii(b, width)|
    ensures Times(r, RowBytes(width)) + j / 8 < |b|
    ensures Bin2Ascii(b, width)[Times(r, width) + j] == BitChar(Bit(b[Times(r, RowBytes(width)) + j / 8], 7 - j % 8))
  {
    Bin2AsciiDigit(b, width, n, r, j);
    BitsAt(b[Times(r, RowBytes(width)) + j / 8], 8, j % 8);
  }

  /** `Bin2AsciiBitOrder` with the byte index as a product: for whole rows
      of `width / 8 + 1` bytes, pixel `j` of row `r` is bit `7 - j % 8` of
      byte `r * (width / 8 + 1) + j / 8`. */
  lemma Bin2AsciiPixelBit(b: seq<byte>, width: nat, r: nat, j: nat)
    requires |b| % (width / 8 + 1) == 0
    requires r < |b| / (width / 8 + 1) && j < width
    ensures && 0 <= r * width + j < |Bin2Ascii(b, width)|
            && 0 <= r * (width / 8 + 1) + j / 8 < |b|
            && Bin2Ascii(b, width)[r * width + j] == BitChar(Bit(b[r * (width / 8 + 1) + j / 8], 7 - j % 8))
  {
    WholeRows(|b|, RowBytes(width));
    Bin2AsciiBitOrder(b, width, |b| / RowBytes(width), r, j);
    TimesIsMul(r, RowBytes(width));
    TimesIsMul(r, width);
  }

  /** Unpacking what was packed gives the pixels back. */
  lemma UnpackPack(s: seq<char>, width: nat)
    requires width > 0 && IsBitString(s) && |s| % width == 0
    ensures Bin2Ascii(Ascii2Bin(s, width), width) == s
  {
    WholeRows(|s|, width);
    PackedRows(s, width, |s| / width);
    KeepRowsOfPadRows(s, width, |s| / width);
  }

  /** Packing what was unpacked gives the bytes back exactly when every
      padding bit was 0. */
  lemma PackUnpack(b: seq<byte>, width: nat)
    requires width > 0 && |b| % RowBytes(width) == 0
    ensures Ascii2Bin(Bin2Ascii(b, width), width) == b <==> PaddingClear(b, width)
  {
    var n := |b| / RowBytes(width);
    var e := Expand(b);
    var s := Bin2Ascii(b, width);
    WholeRows(|b|, RowBytes(width));
    TimesScale(n, RowBytes(width));
    KeepRowsLength(e, width, n);
    PackedRows(s, width, n);
    if PaddingClear(b, width) {
      PadRowsOfKeepRows(e, width, n);
      PackBitsOfExpand(b);
    }
    if Ascii2Bin(s, width) == b {
      PadRowsPadded(s, width, n);
    }
  }

  // ---------------------------------------------------------------------
  // Worked cases

  /** A 3 by 2 image: rows `101` and `010` become `0xA0` and `0x40`. */
  lemma PackThreeByTwo()
    ensures Ascii2Bin("101010", 3) == [0xA0, 0x40]
  {
    ThreeByTwoPadded();
    PackBitsOfExpand([0xA0, 0x40]);
  }

  lemma ThreeByTwoPadded()
    ensures PadRows("101010", 3) == Expand([0xA0, 0x40])
  {
    ExpandTwo(0xA0, 0x40);
    ByteA0();
    Byte40();
    ThreeByTwoRows();
  }

  lemma ByteA0() ensures ByteBits(0xA0) == "10100000" { }

  lemma Byte40() ensures ByteBits(0x40) == "01000000" { }

  lemma ThreeByTwoRows()
    ensures PadRows("101010", 3) == "10100000" + "01000000"
  {
  }

  lemma ExpandTwo(a: byte, b: byte)
    ensures Expand([a, b]) == ByteBits(a) + ByteBits(b)
  {
    assert [a, b][1..] == [b];
    assert Expand([b]) == ByteBits(b) + Expand([]);
  }

  /** A width that is a multiple of 8 still gets 8 refill bits: a row of
      eight set pixels takes two bytes, where raw PBM takes one. */
  lemma PackWholeByteRow()
    ensures Ascii2Bin("11111111", 8) == [0xFF, 0x00]
  {
    WholeByteRowPadded();
    PackBitsOfExpand([0xFF, 0x00]);
  }

  lemma WholeByteRowPadded()
    ensures PadRows("11111111", 8) == Expand([0xFF, 0x00])
  {
    ExpandTwo(0xFF, 0x00);
    ByteFF();
    Byte00();
    WholeByteRowRows();
  }

  lemma ByteFF() ensures ByteBits(0xFF) == "11111111" { }

  lemma Byte00() ensures ByteBits(0x00) == "00000000" { }

  lemma WholeByteRowRows()
    ensures PadRows("11111111", 8) == "11111111" + "00000000"
  {
  }

  /** A trailing partial row packs into a short last slice, read by
      `int(slice, 2)` as a right-aligned number, so the round trip needs
      whole rows: one pixel of a 3-wide row comes back as three. */
  lemma PartialRowNotRestored()
    ensures Ascii2Bin("1", 3) == [0x20]
    ensures Bin2Ascii(Ascii2Bin("1", 3), 3) == "001"
  {
    LonePixelPacked();
    ExpandSpace();
  }

  lemma LonePixelPacked()
    ensures Ascii2Bin("1", 3) == [0x20]
  {
    LonePixelPadded();
    BitsRoundTrip(0x20, 6);
    var p := Bits(0x20, 6);
    assert PackBits(p) == [BinValue(p)];
  }

  lemma LonePixelPadded()
    ensures PadRows("1", 3) == Bits(0x20, 6)
  {
    assert Zeros(Refiller(3)) == "00000";
  }

  lemma ExpandSpace()
    ensures Expand([0x20]) == "00100000"
    ensures KeepRows("00100000", 3) == "001"
  {
    assert ByteBits(0x20) == "00100000";
  }
}

=== FILE: pbm.dfy ===
/** The PBM reader and writer of svg2pbm, `loadpbm` and `write_pbm`, as
    pure functions over the bytes of the file, and the pixel threshold
    `img2pbm_ascii` that turns a rendered RGB buffer into the '0'/'1'
    pixel string they carry.

    A file is a magic line (`P1` plain, `P4` raw), one comment line, a line
    `"{width} {height}"`, and the body. The reader takes the first line as
    the magic, skips exactly one line whatever it holds, and does not check
    the body's size against the dimensions. */
module Pbm {
  import opened BitStrings
  import opened Results
  import opened Strings
  import opened Decimal
  import opened Pack
  import opened Sequences

  /** The `mode` argument of `write_pbm`: "ascii" (plain PBM) or "bin" (raw PBM). */
  datatype Mode = Ascii | Bin

  /** The `buffer` argument of `write_pbm`: a `str` of pixels or a `bytearray` body. */
  datatype Buffer = Text(chars: seq<char>) | Raw(bytes: seq<byte>)

  datatype Magic = P1 | P4

  /** What `loadpbm` returns: the magic number, the pixels, the width and the height. */
  datatype Image = Image(magic: Magic, pixels: seq<char>, width: int, height: int)

  function MagicText(m: Magic): seq<char>
  {
    match m
    case P1 => "P1"
    case P4 => "P4"
  }

  function ModeMagic(mode: Mode): Magic
  {
    if mode == Ascii then P1 else P4
  }

  const Comment: seq<char> := "# Created by svg2pbm converter"

  function Line(s: seq<char>): seq<char> { s + "\n" }

  function DimensionText(width: int, height: int): seq<char>
  {
    IntToString(width) + " " + IntToString(height)
  }

  /** The three header lines written before the body: the magic, a
      comment, and the dimensions. */
  function HeaderText(mode: Mode, comment: seq<char>, width: int, height: int): seq<char>
  {
    Line(MagicText(ModeMagic(mode))) + Line(comment) + Line(DimensionText(width, height))
  }

  /** `line_length`: a line of the plain body holds at most 70 pixels. */
  function LineLength(width: int): int
  {
    if width >= 70 then 70 else width
  }

  /** The bytes `write_pbm` puts in the file. */
  function WritePbm(mode: Mode, buffer: Buffer, width: int, height: int): Result<seq<byte>>
  {
    WritePbmWith(Comment, mode, buffer, width, height)
  }

  /** `write_pbm` with the comment line as a parameter, so that what holds
      of the file can be stated for any comment the reader skips. A buffer
      of the wrong type for the mode raises (TypeError), and so does the
      plain body's `range` when the width is 0; a negative width gives no
      plain body lines at all. A positive width wraps the plain body into
      lines of `min(70, width)` pixels, which `Strings.LinesPieces` spells
      out line by line. */
  function WritePbmWith(comment: seq<char>, mode: Mode, buffer: Buffer, width: int, height: int): (r: Result<seq<byte>>)
    ensures r.Err? <==>
      || (mode == Bin && buffer.Text?)
      || (mode == Ascii && width == 0)
      || (mode == Ascii && width > 0 && buffer.Raw? && |buffer.bytes| > 0)
    ensures r.Err? ==> r.error == (if mode == Ascii && width == 0 then ZeroStep else WrongBufferType)
    ensures r.Ok? ==> EncodeUtf8(HeaderText(mode, comment, width, height)) <= r.value
    ensures r.Ok? && mode == Bin ==> r.value[|EncodeUtf8(HeaderText(mode, comment, width, height))|..] == buffer.bytes
    ensures r.Ok? && mode == Ascii && width > 0 && buffer.Text? ==>
              r.value[|EncodeUtf8(HeaderText(mode, comment, width, height))|..]
              == EncodeUtf8(Lines(buffer.chars, LineLength(width)))
    ensures r.Ok? && mode == Ascii && !(width > 0 && buffer.Text?) ==>
              r.value == EncodeUtf8(HeaderText(mode, comment, width, height))
  {
    var header := EncodeUtf8(HeaderText(mode, comment, width, height));
    match mode
    case Bin =>
      (match buffer
       case Raw(b) => Ok(header + b)
       case Text(_) => Err(WrongBufferType))
    case Ascii =>
      var len := LineLength(width);
      if len == 0 then Err(ZeroStep)
      else if len < 0 then Ok(header)
      else
        match buffer
        case Text(s) => Ok(header + EncodeUtf8(Lines(s, len)))
        case Raw(b) => if |b| == 0 then Ok(header) else Err(WrongBufferType)
  }

  /** `loadpbm` on the bytes of a file: the header lines, then the body. */
  function LoadPbm(file: seq<byte>): (r: Result<Image>)
    ensures r.Ok? ==> DropLast(ReadLine(file).0) == EncodeUtf8(MagicText(r.value.magic))
    ensures r.Ok? && r.value.magic == P1 ==> '\n' !in r.value.pixels
    ensures r.Ok? && r.value.magic == P4 ==> IsBitString(r.value.pixels)
    ensures r.Err? && r.error.UnknownFormat? ==> r.error.magic !in {"P1", "P4"}
    ensures !IsAscii(DropLast(ReadLine(file).0)) ==> r == Err(NotAscii)
    ensures IsAscii(DropLast(ReadLine(file).0)) && !IsAscii(DropLast(ReadLine(ReadLine(ReadLine(file).1).1).0))
            ==> r == Err(NotAscii)
  {
    var line1 := ReadLine(file);
    var magicBytes := DropLast(line1.0);
    if !IsAscii(magicBytes) then Err(NotAscii)
    else
      var line2 := ReadLine(line1.1);  // the comment line, skipped unread
      var line3 := ReadLine(line2.1);
      var dimBytes := DropLast(line3.0);
      if !IsAscii(dimBytes) then Err(NotAscii)
      else
        var fields := Split(DecodeAscii(dimBytes), ' ');
        if |fields| != 2 then Err(BadDimensions)
        else
          var r := LoadBody(DecodeAscii(magicBytes), fields[0], fields[1], line3.1);
          assert r.Ok? ==> magicBytes == EncodeUtf8(MagicText(r.value.magic)) by {
            if r.Ok? {
              assert EncodeUtf8("P1") == [80, 49] && EncodeUtf8("P4") == [80, 52];
            }
          }
          r
  }

  /** The part of `loadpbm` after the header: the body read according to
      the magic, and the two dimension fields read with `int()` (the width
      first, as the raw body needs it). */
  function LoadBody(magic: seq<char>, w: seq<char>, h: seq<char>, body: seq<byte>): (r: Result<Image>)
    ensures r.Ok? ==> magic == MagicText(r.value.magic)
    ensures r.Ok? && r.value.magic == P1 ==> '\n' !in r.value.pixels
    ensures r.Ok? && r.value.magic == P4 ==> IsBitString(r.value.pixels)
    ensures r.Err? && r.error.UnknownFormat? ==> r.error.magic == magic && magic !in {"P1", "P4"}
    ensures magic == "P4" && ParseInt(w).None? ==> r == Err(BadInteger)
    ensures magic == "P1" && IsAscii(body) && (ParseInt(w).None? || ParseInt(h).None?) ==> r == Err(BadInteger)
  {
    if magic == "P1" then
      if !IsAscii(body) then Err(NotAscii)
      else
        var pixels := Concat(Split(DecodeAscii(body), '\n'));
        ConcatSplit(DecodeAscii(body), '\n');
        RemoveAbsent(DecodeAscii(body), '\n');
        match (ParseInt(w), ParseInt(h))
        case (Some(width), Some(height)) => Ok(Image(P1, pixels, width, height))
        case _ => Err(BadInteger)
    else if magic == "P4" then
      match ParseInt(w)
      case None => Err(BadInteger)
      case Some(width) =>
        match Bin2AsciiInt(body, width)
        case Err(e) => Err(e)
        case Ok(pixels) =>
          match ParseInt(h)
          case None => Err(BadInteger)
          case Some(height) => Ok(Image(P4, pixels, width, height))
    else Err(UnknownFormat(magic))
  }

  /** `readline()` on an encoded newline-free line followed by more bytes
      returns the line's bytes with their newline, and leaves the rest. */
  lemma ReadEncodedLine(line: seq<char>, rest: seq<byte>)
    requires '\n' !in line
    ensures ReadLine(EncodeUtf8(Line(line)) + rest) == (EncodeUtf8(line) + [NL], rest)
  {
    EncodeUtf8Append(line, "\n");
    EncodeAscii(line);
    assert EncodeUtf8("\n") == [NL];
    ReadLineOf(EncodeUtf8(line), rest);
  }

  /** An encoded newline-free line is its encoding and the newline byte,
      with no other newline byte. */
  lemma EncodeLine(line: seq<char>)
    requires '\n' !in line
    ensures EncodeUtf8(Line(line)) == EncodeUtf8(line) + [NL] && NL !in EncodeUtf8(line)
  {
    EncodeUtf8Append(line, "\n");
    EncodeAscii(line);
    assert EncodeUtf8("\n") == [NL];
  }

  /** Splitting two separator-free pieces joined by the separator gives the two pieces. */
  lemma SplitTwo(a: seq<char>, b: seq<char>, sep: char)
    requires sep !in a && sep !in b
    ensures Split(a + [sep] + b, sep) == [a, b]
  {
    assert Join([a, b], sep) == a + [sep] + b by {
      assert [a, b][1..] == [b];
    }
    SplitJoin([a, b], sep);
  }

  /** `int()` reads back what `f"{n}"` wrote. */
  lemma ParseIntToString(n: int)
    ensures ParseInt(IntToString(n)) == Some(n)
  {
    ParseIntOfIntToString([], n, []);
    assert [] + IntToString(n) + [] == IntToString(n);
  }

  /** The dimension line `write_pbm` writes splits on the space into the
      two numbers, and `int()` reads each one back. */
  lemma DimensionsReadBack(width: int, height: int)
    ensures Split(DimensionText(width, height), ' ') == [IntToString(width), IntToString(height)]
    ensures ParseInt(IntToString(width)) == Some(width)
    ensures ParseInt(IntToString(height)) == Some(height)
  {
    IntToStringText(width);
    IntToStringText(height);
    SplitTwo(IntToString(width), IntToString(height), ' ');
    ParseIntToString(width);
    ParseIntToString(height);
  }

  /** `readline()` three times on three encoded newline-free lines and a
      body: the first line, and the third line with the body after it. */
  lemma ReadThreeLines(a: seq<char>, b: seq<byte>, c: seq<char>, body: seq<byte>)
    requires '\n' !in a && NL !in b && '\n' !in c
    ensures var line1 := ReadLine(EncodeUtf8(Line(a)) + (b + [NL] + (EncodeUtf8(Line(c)) + body)));
            line1.0 == EncodeUtf8(a) + [NL] && ReadLine(ReadLine(line1.1).1) == (EncodeUtf8(c) + [NL], body)
  {
    var e3 := EncodeUtf8(Line(c));
    ReadEncodedLine(a, b + [NL] + (e3 + body));
    ReadLineOf(b, e3 + body);
    ReadEncodedLine(c, body);
  }

  /** `loadpbm` on three lines and a body, the first and third ASCII text:
      the first line is the magic, the second is skipped whatever bytes it
      holds, and the third must split on its space into two fields. */
  lemma LoadLines(magic: seq<char>, comment: seq<byte>, dims: seq<char>, body: seq<byte>)
    requires '\n' !in magic && NL !in comment && '\n' !in dims
    requires IsAsciiText(magic) && IsAsciiText(dims)
    ensures var file := EncodeUtf8(Line(magic)) + (comment + [NL] + (EncodeUtf8(Line(dims)) + body));
            var fields := Split(dims, ' ');
            LoadPbm(file) == if |fields| != 2 then Err(BadDimensions) else LoadBody(magic, fields[0], fields[1], body)
  {
    ReadThreeLines(magic, comment, dims, body);
    DecodeEncoded(magic);
    DecodeEncoded(dims);
    assert DropLast(EncodeUtf8(magic) + [NL]) == EncodeUtf8(magic);
    assert DropLast(EncodeUtf8(dims) + [NL]) == EncodeUtf8(dims);
  }

  /** What `loadpbm` returns for a file of a magic line, any one comment
      line (any bytes but the newline), the dimension line, and a body: the
      body read according to the magic, with the dimensions written in the
      file. */
  lemma LoadWritten(m: Magic, comment: seq<byte>, width: int, height: int, body: seq<byte>)
    requires NL !in comment
    ensures var file := EncodeUtf8(Line(MagicText(m)))
                      + (comment + [NL] + (EncodeUtf8(Line(DimensionText(width, height))) + body));
            LoadPbm(file) == LoadBody(MagicText(m), IntToString(width), IntToString(height), body)
  {
    IntToStringText(width);
    IntToStringText(height);
    assert IsAsciiText(MagicText(m)) && '\n' !in MagicText(m);
    AsciiTextAppend(IntToString(width), " ");
    AsciiTextAppend(IntToString(width) + " ", IntToString(height));
    LoadLines(MagicText(m), comment, DimensionText(width, height), body);
    DimensionsReadBack(width, height);
  }

  /** A magic line other than `P1` and `P4` is refused once the
      dimension line has been split. */
  lemma LoadUnknownMagic(magic: seq<char>, comment: seq<byte>, width: int, height: int, body: seq<byte>)
    requires '\n' !in magic && NL !in comment && IsAsciiText(magic)
    requires magic != "P1" && magic != "P4"
    ensures LoadPbm(EncodeUtf8(Line(magic))
                    + (comment + [NL] + (EncodeUtf8(Line(DimensionText(width, height))) + body)))
         == Err(UnknownFormat(magic))
  {
    var dims := DimensionText(width, height);
    IntToStringText(width);
    IntToStringText(height);
    AsciiTextAppend(IntToString(width), " ");
    AsciiTextAppend(IntToString(width) + " ", IntToString(height));
    LoadLines(magic, comment, dims, body);
    DimensionsReadBack(width, height);
  }

  /** A dimension line without exactly one space is refused, whatever the magic. */
  lemma LoadBadDimensions(magic: seq<char>, comment: seq<byte>, dims: seq<char>, body: seq<byte>)
    requires '\n' !in magic && NL !in comment && '\n' !in dims
    requires IsAsciiText(magic) && IsAsciiText(dims)
    requires Count(dims, ' ') != 1
    ensures LoadPbm(EncodeUtf8(Line(magic)) + (comment + [NL] + (EncodeUtf8(Line(dims)) + body)))
         == Err(BadDimensions)
  {
    LoadLines(magic, comment, dims, body);
  }

  /** The body of a plain file as `loadpbm` reads it, with dimension
      fields `w` and `h` as the file has them: the ASCII body without its
      newlines and the two fields read by `int()`. A non-ASCII body raises
      first, and a field `int()` refuses raises next. */
  lemma LoadPlainBody(w: seq<char>, h: seq<char>, body: seq<byte>)
    ensures LoadBody("P1", w, h, body)
         == if !IsAscii(body) then Err(NotAscii)
            else if ParseInt(w).None? || ParseInt(h).None? then Err(BadInteger)
            else Ok(Image(P1, Remove(DecodeAscii(body), '\n'), ParseInt(w).value, ParseInt(h).value))
  {
    if IsAscii(body) {
      ConcatSplit(DecodeAscii(body), '\n');
    }
  }

  /** The body of a raw file as `loadpbm` reads it: a width field `int()`
      refuses raises, a width from -8 to -1 makes `bin2ascii` raise, and
      otherwise the body is unpacked with that width before the height
      field is read. */
  lemma LoadRawBody(w: seq<char>, h: seq<char>, body: seq<byte>)
    ensures LoadBody("P4", w, h, body)
         == if ParseInt(w).None? then Err(BadInteger)
            else if -8 <= ParseInt(w).value < 0 then Err(ZeroStep)
            else if ParseInt(h).None? then Err(BadInteger)
            else Ok(Image(P4, Bin2AsciiInt(body, ParseInt(w).value).value, ParseInt(w).value, ParseInt(h).value))
  {
  }

  /** `int()` reads a dimension field with a carriage return after it (a
      file with CRLF line ends) or with a leading zero, and refuses one
      that is not a number, or that is preceded by a file separator
      (character 28), which `str.isspace()` accepts but `int()` does not
      strip. */
  lemma DimensionFieldExamples()
    ensures ParseInt("2\r") == Some(2)
    ensures ParseInt("03") == Some(3)
    ensures ParseInt("x") == None
    ensures ParseInt([28 as char, '3']) == None
  {
    ParseIntOfIntToString([], 2, "\r");
    assert IntToString(2) == "2";
    assert [] + "2" + "\r" == "2\r";
    ParseStrippedDigits("03");
    assert StripEnd(StripStart("03")) == "03";
  }

  lemma EncodeThree(a: seq<char>, b: seq<char>, c: seq<char>, rest: seq<byte>)
    ensures EncodeUtf8(a + b + c) + rest == EncodeUtf8(a) + (EncodeUtf8(b) + (EncodeUtf8(c) + rest))
  {
    EncodeUtf8Append(a + b, c);
    EncodeUtf8Append(a, b);
    Regroup(EncodeUtf8(a), EncodeUtf8(b), EncodeUtf8(c), rest);
  }

  /** The bytes of a header and a body are the bytes of the header's
      three lines and then the body. */
  lemma EncodeHeader(mode: Mode, comment: seq<char>, width: int, height: int, body: seq<byte>)
    ensures EncodeUtf8(HeaderText(mode, comment, width, height)) + body
         == EncodeUtf8(Line(MagicText(ModeMagic(mode))))
          + (EncodeUtf8(Line(comment)) + (EncodeUtf8(Line(DimensionText(width, height))) + body))
  {
    EncodeThree(Line(MagicText(ModeMagic(mode))), Line(comment), Line(DimensionText(width, height)), body);
  }

  /** `loadpbm` on what `write_pbm` writes, header then body: the body read
      according to the header's magic, with the header's dimensions. */
  lemma LoadHeader(mode: Mode, comment: seq<char>, width: int, height: int, body: seq<byte>)
    requires '\n' !in comment
    ensures LoadPbm(EncodeUtf8(HeaderText(mode, comment, width, height)) + body)
         == LoadBody(MagicText(ModeMagic(mode)), IntToString(width), IntToString(height), body)
  {
    EncodeHeader(mode, comment, width, height, body);
    EncodeLine(comment);
    LoadWritten(ModeMagic(mode), EncodeUtf8(comment), width, height, body);
  }

  lemma CommentLine()
    ensures '\n' !in Comment
  {
  }

  /** A pixel string is ASCII text without newlines. */
  lemma BitStringText(s: seq<char>)
    requires IsBitString(s)
    ensures IsAsciiText(s) && '\n' !in s
  {
  }

  /** ASCII-ness does not depend on the newlines. */
  lemma {:induction false} AsciiRemoveNewlines(t: seq<char>)
    ensures IsAsciiText(Remove(t, '\n')) <==> IsAsciiText(t)
    decreases |t|
  {
    if |t| > 0 {
      AsciiRemoveNewlines(t[1..]);
      var head := if t[0] == '\n' then [] else [t[0]];
      assert Remove(t, '\n') == head + Remove(t[1..], '\n');
      AsciiTextAppend(head, Remove(t[1..], '\n'));
      AsciiTextAppend([t[0]], t[1..]);
      assert t == [t[0]] + t[1..];
    }
  }

  /** The plain writer's output read back: the pixel string without its
      newlines, or the ASCII decoding error when the string holds a
      character the writer encodes as more than one byte. */
  lemma WriteLoadPlain(comment: seq<char>, s: seq<char>, width: int, height: int)
    requires '\n' !in comment && width > 0
    ensures WritePbmWith(comment, Ascii, Text(s), width, height).Ok?
    ensures LoadPbm(WritePbmWith(comment, Ascii, Text(s), width, height).value)
         == if IsAsciiText(s) then Ok(Image(P1, Remove(s, '\n'), width, height)) else Err(NotAscii)
  {
    var t := Lines(s, LineLength(width));
    var header := EncodeUtf8(HeaderText(Ascii, comment, width, height));
    assert WritePbmWith(comment, Ascii, Text(s), width, height) == Ok(header + EncodeUtf8(t));
    LoadHeader(Ascii, comment, width, height, EncodeUtf8(t));
    LoadPlainBody(IntToString(width), IntToString(height), EncodeUtf8(t));
    ParseIntToString(width);
    ParseIntToString(height);
    RemoveLines(s, LineLength(width));
    AsciiRemoveNewlines(t);
    AsciiRemoveNewlines(s);
    EncodeAscii(t);
    if IsAsciiText(s) {
      DecodeEncoded(t);
    }
  }

  /** A plain write with a negative width has no body lines: the header
      is read back with no pixels. */
  lemma WriteLoadNoLines(comment: seq<char>, s: seq<char>, width: int, height: int)
    requires '\n' !in comment && width < 0
    ensures WritePbmWith(comment, Ascii, Text(s), width, height) == Ok(EncodeUtf8(HeaderText(Ascii, comment, width, height)))
    ensures LoadPbm(WritePbmWith(comment, Ascii, Text(s), width, height).value) == Ok(Image(P1, [], width, height))
  {
    var header := EncodeUtf8(HeaderText(Ascii, comment, width, height));
    LoadHeader(Ascii, comment, width, height, []);
    LoadPlainBody(IntToString(width), IntToString(height), []);
    ParseIntToString(width);
    ParseIntToString(height);
    assert header + [] == header;
  }

  /** The raw writer's output read back: the body unpacked with the
      width, or the error of a width `bin2ascii` cannot step by. */
  lemma WriteLoadRaw(comment: seq<char>, b: seq<byte>, width: int, height: int)
    requires '\n' !in comment
    ensures WritePbmWith(comment, Bin, Raw(b), width, height).Ok?
    ensures LoadPbm(WritePbmWith(comment, Bin, Raw(b), width, height).value)
         == if -8 <= width < 0 then Err(ZeroStep) else Ok(Image(P4, Bin2AsciiInt(b, width).value, width, height))
  {
    LoadHeader(Bin, comment, width, height, b);
    LoadRawBody(IntToString(width), IntToString(height), b);
    ParseIntToString(width);
    ParseIntToString(height);
  }

  /** Writing a pixel string of whole rows in either format and loading
      the file gives back the same pixels, width and height, whatever
      newline-free comment the header carries. The raw format carries the
      string packed by `ascii2bin`, as `convert` does. */
  lemma WriteLoadPixelsWith(comment: seq<char>, s: seq<char>, width: int, height: int)
    requires '\n' !in comment
    requires width > 0 && IsBitString(s) && |s| % width == 0
    ensures LoadPbm(WritePbmWith(comment, Ascii, Text(s), width, height).value) == Ok(Image(P1, s, width, height))
    ensures LoadPbm(WritePbmWith(comment, Bin, Raw(Ascii2Bin(s, width)), width, height).value)
         == Ok(Image(P4, s, width, height))
  {
    BitStringText(s);
    RemoveAbsent(s, '\n');
    WriteLoadPlain(comment, s, width, height);
    WriteLoadRaw(comment, Ascii2Bin(s, width), width, height);
    UnpackPack(s, width);
  }

  /** The round trip for the files `write_pbm` writes. */
  lemma WriteLoadPixels(s: seq<char>, width: int, height: int)
    requires width > 0 && IsBitString(s) && |s| % width == 0
    ensures LoadPbm(WritePbm(Ascii, Text(s), width, height).value) == Ok(Image(P1, s, width, height))
    ensures LoadPbm(WritePbm(Bin, Raw(Ascii2Bin(s, width)), width, height).value) == Ok(Image(P4, s, width, height))
  {
    CommentLine();
    WriteLoadPixelsWith(Comment, s, width, height);
  }

  /** No line of a plain body holds more than 70 pixels, nor more than
      the width. */
  lemma PlainLinesShort(s: seq<char>, width: int)
    requires width > 0 && '\n' !in s
    ensures 0 < LineLength(width) <= 70 && LineLength(width) <= width
    ensures var lines := Split(Lines(s, LineLength(width)), '\n');
            forall i :: 0 <= i < |lines| ==> |lines[i]| <= 70 && |lines[i]| <= width
  {
    LinesShort(s, LineLength(width));
  }

  /** The header of a plain 3 by 2 image. */
  lemma HeaderExample()
    ensures HeaderText(Ascii, Comment, 3, 2) == Line("P1") + Line(Comment) + Line("3 2")
  {
    assert DimensionText(3, 2) == "3 2" by {
      assert IntToString(3) == "3" && IntToString(2) == "2";
    }
  }

  /** Writing the 3 by 2 image "101010" in the plain format: the header,
      then one line per row. */
  lemma PlainExample()
    ensures WritePbm(Ascii, Text("101010"), 3, 2)
         == Ok(EncodeUtf8(HeaderText(Ascii, Comment, 3, 2)) + EncodeUtf8("101\n010\n"))
  {
    assert Lines("101010", 3) == "101\n010\n";
  }

  /** `img2pbm_ascii`: one pixel per three bytes of the RGB buffer, '1'
      (black) when the pixel's first byte is at most 1 and '0' otherwise.
      The width is not used. */
  method Img2PbmAscii(img: seq<byte>, width: int) returns (s: seq<char>)
    ensures |s| == (|img| + 2) / 3 && IsBitString(s)
    ensures forall i :: 0 <= i < |s| ==> 3 * i < |img| && s[i] == BitChar(img[3 * i] <= 1)
  {
    s := [];
    var index := 0;
    while index < |img|
      invariant index == 3 * |s|
      invariant index == 0 || index - 3 < |img|
      invariant forall i :: 0 <= i < |s| ==> 3 * i < |img| && s[i] == BitChar(img[3 * i] <= 1)
      decreases |img| - index
    {
      var bit := if img[index] > 1 then '0' else '1';
      s := s + [bit];
      index := index + 3;
    }
  }
}

=== FILE: results.dfy ===
/** Outcomes of the codec's operations: an optional value, the exceptions
    the Python code raises (one constructor per raising condition), and a
    result that is either a value or one of those errors. */
module Results {

  datatype Option<+T> = None | Some(value: T)

  /** The conditions under which the codec raises, named after their cause. */
  datatype Error =
    | NotAscii                         // bytes.decode('ascii') met a byte >= 128
    | BadDimensions                    // the dimension line is not two fields split by one space
    | BadInteger                       // int() rejected a dimension field
    | ZeroStep                         // range() was called with a step of 0
    | UnknownFormat(magic: seq<char>)  // the magic number is neither P1 nor P4 (the source's message names the file)
    | WrongBufferType                  // the buffer's type does not fit the write mode

  datatype Result<+T> = Ok(value: T) | Err(error: Error)
}

=== FILE: sequences.dfy ===
/** Facts about sequences of any element type, used by the packing, text
    and file modules. */
module Sequences {

  /** A sequence is its prefix of length `k` followed by the rest. */
  lemma SplitAt<T>(s: seq<T>, k: nat)
    requires k <= |s|
    ensures s == s[..k] + s[k..]
  {
  }

  /** An index past the first part of a concatenation falls in the second. */
  lemma IndexAfter<T>(a: seq<T>, b: seq<T>, x: nat)
    requires |a| <= x < |a| + |b|
    ensures (a + b)[x] == b[x - |a|]
  {
  }

  /** Concatenation regrouped to the right. */
  lemma Regroup<T>(a: seq<T>, b: seq<T>, c: seq<T>, d: seq<T>)
    ensures a + b + c + d == a + (b + (c + d))
  {
  }

  /** A slice of what follows the first `d` elements, as a slice of the whole. */
  lemma DropSlice<T>(s: seq<T>, d: nat, a: nat, b: nat)
    requires d <= |s| && a <= b <= |s| - d
    ensures s[d..][a..b] == s[d + a .. d + b]
  {
  }
}

=== FILE: strings.dfy ===
/** The text operations the PBM reader and writer are built from:
    `str.encode()` (UTF-8), `bytes.decode('ascii')`, `readline()` on a
    binary file, `str.split`, `str.join`, and the line wrapping of the
    plain (P1) body. */
module Strings {
  import opened BitStrings
  import opened Sequences

  const NL: byte := 10

  predicate IsAsciiChar(c: char) { c as int < 128 }

  predicate IsAsciiText(s: seq<char>) { forall i :: 0 <= i < |s| ==> IsAsciiChar(s[i]) }

  predicate IsAscii(bs: seq<byte>) { forall i :: 0 <= i < |bs| ==> bs[i] < 128 }

  /** `bytes.decode('ascii')`, defined when every byte is below 128. */
  function DecodeAscii(bs: seq<byte>): seq<char>
    requires IsAscii(bs)
  {
    seq(|bs|, i requires 0 <= i < |bs| => bs[i] as char)
  }

  /** The UTF-8 encoding of one character. */
  function Utf8(c: char): (bs: seq<byte>)
    ensures 1 <= |bs| <= 4
    ensures IsAsciiChar(c) ==> bs == [c as int]
    ensures !IsAsciiChar(c) ==> forall i :: 0 <= i < |bs| ==> bs[i] >= 128
  {
    var n := c as int;
    if n < 0x80 then [n]
    else if n < 0x800 then [0xC0 + n / 64, 0x80 + n % 64]
    else if n < 0x10000 then [0xE0 + n / 4096, 0x80 + (n / 64) % 64, 0x80 + n % 64]
    else [0xF0 + n / 262144, 0x80 + (n / 4096) % 64, 0x80 + (n / 64) % 64, 0x80 + n % 64]
  }

  /** `str.encode()`: the UTF-8 encodings of the characters, in order. */
  function EncodeUtf8(s: seq<char>): seq<byte>
    decreases |s|
  {
    if |s| == 0 then [] else Utf8(s[0]) + EncodeUtf8(s[1..])
  }

  /** ASCII text encodes byte for byte; any other character leaves a byte
      of 128 or more behind; and only a newline character encodes to the
      newline byte. */
  lemma {:induction false} EncodeAscii(s: seq<char>)
    ensures IsAscii(EncodeUtf8(s)) <==> IsAsciiText(s)
    ensures IsAsciiText(s) ==> |EncodeUtf8(s)| == |s| && forall i :: 0 <= i < |s| ==> EncodeUtf8(s)[i] == s[i] as int
    ensures '\n' !in s ==> NL !in EncodeUtf8(s)
    decreases |s|
  {
    if |s| > 0 {
      var head, tail := Utf8(s[0]), EncodeUtf8(s[1..]);
      EncodeAscii(s[1..]);
      AsciiTextCons(s);
      AsciiAppend(head, tail);
      assert !IsAsciiChar(s[0]) ==> head[0] >= 128;
      if IsAsciiText(s) {
        forall i | 0 <= i < |s|
          ensures EncodeUtf8(s)[i] == s[i] as int
        {
          if i > 0 {
            assert EncodeUtf8(s)[i] == tail[i - 1];
          }
        }
      }
    }
  }

  lemma AsciiTextCons(s: seq<char>)
    requires |s| > 0
    ensures IsAsciiText(s) <==> IsAsciiChar(s[0]) && IsAsciiText(s[1..])
  {
    if IsAsciiChar(s[0]) && IsAsciiText(s[1..]) {
      forall i | 1 <= i < |s|
        ensures IsAsciiChar(s[i])
      {
        assert s[i] == s[1..][i - 1];
      }
    }
  }

  lemma AsciiTextAppend(a: seq<char>, b: seq<char>)
    ensures IsAsciiText(a + b) <==> IsAsciiText(a) && IsAsciiText(b)
  {
    if IsAsciiText(a + b) {
      forall i | 0 <= i < |a|
        ensures IsAsciiChar(a[i])
      {
        assert (a + b)[i] == a[i];
      }
      forall i | 0 <= i < |b|
        ensures IsAsciiChar(b[i])
      {
        assert (a + b)[|a| + i] == b[i];
      }
    }
    if IsAsciiText(a) && IsAsciiText(b) {
      forall i | 0 <= i < |a + b|
        ensures IsAsciiChar((a + b)[i])
      {
        if i >= |a| {
          assert (a + b)[i] == b[i - |a|];
        }
      }
    }
  }

  lemma AsciiAppend(a: seq<byte>, b: seq<byte>)
    ensures IsAscii(a + b) <==> IsAscii(a) && IsAscii(b)
  {
    if IsAscii(a + b) {
      forall i | 0 <= i < |a|
        ensures a[i] < 128
      {
        assert a[i] == (a + b)[i];
      }
      forall i | 0 <= i < |b|
        ensures b[i] < 128
      {
        assert b[i] == (a + b)[|a| + i];
      }
    }
    if IsAscii(a) && IsAscii(b) {
      forall i | 0 <= i < |a + b|
        ensures (a + b)[i] < 128
      {
        if i < |a| {
          assert (a + b)[i] == a[i];
        } else {
          assert (a + b)[i] == b[i - |a|];
        }
      }
    }
  }

  lemma {:induction false} EncodeUtf8Append(a: seq<char>, b: seq<char>)
    ensures EncodeUtf8(a + b) == EncodeUtf8(a) + EncodeUtf8(b)
    decreases |a|
  {
    if |a| > 0 {
      assert (a + b)[1..] == a[1..] + b;
      EncodeUtf8Append(a[1..], b);
    } else {
      assert a + b == b;
    }
  }

  /** Decoding encoded ASCII text as ASCII gives the text back. */
  lemma {:induction false} DecodeEncoded(s: seq<char>)
    requires IsAsciiText(s)
    ensures IsAscii(EncodeUtf8(s)) && DecodeAscii(EncodeUtf8(s)) == s
  {
    EncodeAscii(s);
  }

  /** `readline()` on a binary file holding `bs`: the bytes up to and
      including the first newline (all of them when there is none), and
      the bytes after it. */
  function ReadLine(bs: seq<byte>): (seq<byte>, seq<byte>)
    decreases |bs|
  {
    if |bs| == 0 then ([], [])
    else if bs[0] == NL then ([NL], bs[1..])
    else
      var r := ReadLine(bs[1..]);
      ([bs[0]] + r.0, r.1)
  }

  /** The line and the rest together are the input; the line ends at the
      first newline, which it keeps; with no newline the line is all of it. */
  lemma {:induction false} ReadLineSplits(bs: seq<byte>)
    ensures ReadLine(bs).0 + ReadLine(bs).1 == bs
    ensures NL in bs ==> |ReadLine(bs).0| > 0 && ReadLine(bs).0[|ReadLine(bs).0| - 1] == NL
                         && NL !in ReadLine(bs).0[..|ReadLine(bs).0| - 1]
    ensures NL !in bs ==> ReadLine(bs).1 == []
    decreases |bs|
  {
    if |bs| > 0 && bs[0] != NL {
      ReadLineSplits(bs[1..]);
      var r := ReadLine(bs[1..]);
      assert bs == [bs[0]] + bs[1..];
      if NL in bs {
        assert NL in bs[1..];
        assert ([bs[0]] + r.0)[..|r.0|] == [bs[0]] + r.0[..|r.0| - 1];
      }
    }
  }

  lemma {:induction false} ReadLineOf(line: seq<byte>, rest: seq<byte>)
    requires NL !in line
    ensures ReadLine(line + [NL] + rest) == (line + [NL], rest)
    decreases |line|
  {
    var bs := line + [NL] + rest;
    if |line| > 0 {
      assert bs[0] == line[0] && bs[0] != NL;
      assert bs[1..] == line[1..] + [NL] + rest;
      ReadLineOf(line[1..], rest);
      assert [line[0]] + (line[1..] + [NL]) == line + [NL];
    } else {
      assert line + [NL] == [NL];
      assert bs[0] == NL && bs[1..] == rest;
    }
  }

  /** `s[:-1]`: everything but the last element. */
  function DropLast<T>(s: seq<T>): seq<T>
  {
    if |s| == 0 then s else s[..|s| - 1]
  }

  function Count(s: seq<char>, c: char): nat
    decreases |s|
  {
    if |s| == 0 then 0 else (if s[0] == c then 1 else 0) + Count(s[1..], c)
  }

  /** `s` without any occurrence of `c`. */
  function Remove(s: seq<char>, c: char): seq<char>
    decreases |s|
  {
    if |s| == 0 then [] else (if s[0] == c then [] else [s[0]]) + Remove(s[1..], c)
  }

  /** No `c` is left, and a text without `c` is unchanged. */
  lemma {:induction false} RemoveAbsent(s: seq<char>, c: char)
    ensures c !in Remove(s, c)
    ensures c !in s ==> Remove(s, c) == s
    decreases |s|
  {
    if |s| > 0 {
      RemoveAbsent(s[1..], c);
      assert s == [s[0]] + s[1..];
    }
  }

  lemma {:induction false} RemoveAppend(a: seq<char>, b: seq<char>, c: char)
    ensures Remove(a + b, c) == Remove(a, c) + Remove(b, c)
    decreases |a|
  {
    if |a| > 0 {
      assert (a + b)[1..] == a[1..] + b;
      RemoveAppend(a[1..], b, c);
    } else {
      assert a + b == b;
    }
  }

  /** `sep.join(parts)`. */
  function Join(parts: seq<seq<char>>, sep: char): seq<char>
    decreases |parts|
  {
    if |parts| == 0 then []
    else if |parts| == 1 then parts[0]
    else parts[0] + [sep] + Join(parts[1..], sep)
  }

  /** `"".join(parts)`. */
  function Concat(parts: seq<seq<char>>): seq<char>
    decreases |parts|
  {
    if |parts| == 0 then [] else parts[0] + Concat(parts[1..])
  }

  /** `s.split(sep)`: the pieces between the occurrences of `sep`, empty
      pieces included, one more than there are separators. */
  function Split(s: seq<char>, sep: char): (parts: seq<seq<char>>)
    ensures |parts| == Count(s, sep) + 1
    decreases |s|
  {
    if |s| == 0 then [[]]
    else
      var rest := Split(s[1..], sep);
      if s[0] == sep then [[]] + rest
      else [[s[0]] + rest[0]] + rest[1..]
  }

  /** No piece holds the separator, and joining the pieces with it gives
      the text back. */
  lemma {:induction false} SplitPieces(s: seq<char>, sep: char)
    ensures forall i :: 0 <= i < |Split(s, sep)| ==> sep !in Split(s, sep)[i]
    ensures Join(Split(s, sep), sep) == s
    decreases |s|
  {
    if |s| > 0 {
      SplitPieces(s[1..], sep);
      var rest := Split(s[1..], sep);
      var parts := Split(s, sep);
      if s[0] == sep {
        assert parts == [[]] + rest;
        assert Join(parts, sep) == [] + [sep] + Join(rest, sep);
        assert s == [sep] + s[1..];
      } else {
        assert parts == [[s[0]] + rest[0]] + rest[1..];
        forall i | 0 <= i < |parts|
          ensures sep !in parts[i]
        {
          if i > 0 {
            assert parts[i] == rest[i];
          }
        }
        JoinExtendFirst(s[0], rest, sep);
        assert s == [s[0]] + s[1..];
      }
    }
  }

  /** Putting a character in front of the first piece puts it in front of the joined text. */
  lemma JoinExtendFirst(c: char, parts: seq<seq<char>>, sep: char)
    requires |parts| >= 1
    ensures Join([[c] + parts[0]] + parts[1..], sep) == [c] + Join(parts, sep)
  {
    var longer := [[c] + parts[0]] + parts[1..];
    assert longer[1..] == parts[1..];
    if |parts| > 1 {
      assert Join(longer, sep) == ([c] + parts[0]) + [sep] + Join(parts[1..], sep);
      assert Join(parts, sep) == parts[0] + [sep] + Join(parts[1..], sep);
    }
  }

  /** Splitting a joined sequence of separator-free pieces gives the pieces back. */
  lemma {:induction false} SplitJoin(parts: seq<seq<char>>, sep: char)
    requires |parts| >= 1
    requires forall i :: 0 <= i < |parts| ==> sep !in parts[i]
    ensures Split(Join(parts, sep), sep) == parts
    decreases |parts|, |parts[0]|
  {
    var p := parts[0];
    if |p| == 0 {
      if |parts| > 1 {
        SplitJoin(parts[1..], sep);
        assert Join(parts, sep) == [sep] + Join(parts[1..], sep);
        assert ([sep] + Join(parts[1..], sep))[1..] == Join(parts[1..], sep);
      }
    } else {
      var shorter := [p[1..]] + parts[1..];
      forall i | 0 <= i < |shorter|
        ensures sep !in shorter[i]
      {
        if i > 0 {
          assert shorter[i] == parts[i];
        }
      }
      SplitJoin(shorter, sep);
      assert shorter[0] == p[1..] && shorter[1..] == parts[1..];
      assert p == [p[0]] + p[1..];
      assert parts == [[p[0]] + shorter[0]] + shorter[1..];
      JoinExtendFirst(p[0], shorter, sep);
      var joined := Join(parts, sep);
      assert joined[0] == p[0] && joined[1..] == Join(shorter, sep);
    }
  }

  /** `"".join(s.split(c))` removes every `c` from `s`. */
  lemma {:induction false} ConcatSplit(s: seq<char>, c: char)
    ensures Concat(Split(s, c)) == Remove(s, c)
    decreases |s|
  {
    if |s| > 0 {
      ConcatSplit(s[1..], c);
      var rest := Split(s[1..], c);
      if s[0] != c {
        assert Concat([[s[0]] + rest[0]] + rest[1..]) == [s[0]] + Concat(rest);
      }
    }
  }

  /** The plain body as `write_pbm` writes it: slices of `len` characters
      (the last one may be shorter), each followed by a newline. */
  function Lines(s: seq<char>, len: nat): (t: seq<char>)
    requires len > 0
    ensures |s| == 0 <==> |t| == 0
    ensures |t| > 0 ==> t[|t| - 1] == '\n'
    decreases |s|
  {
    if |s| == 0 then []
    else if |s| <= len then s + "\n"
    else s[..len] + "\n" + Lines(s[len..], len)
  }

  /** Taking the newlines out of the wrapped body leaves the text without its newlines. */
  lemma {:induction false} RemoveLines(s: seq<char>, len: nat)
    requires len > 0
    ensures Remove(Lines(s, len), '\n') == Remove(s, '\n')
    decreases |s|
  {
    var nl := "\n";
    assert Remove(nl, '\n') == [];
    if 0 < |s| <= len {
      RemoveAppend(s, nl, '\n');
    } else if |s| > len {
      var head, tail := s[..len], s[len..];
      var rest := Lines(tail, len);
      RemoveLines(tail, len);
      assert Lines(s, len) == head + (nl + rest);
      RemoveAppend(head, nl + rest, '\n');
      RemoveAppend(nl, rest, '\n');
      RemoveAppend(head, tail, '\n');
      assert s == head + tail;
    }
  }

  /** Splitting at the first separator: the piece before it, then the
      pieces of the rest. */
  lemma {:induction false} SplitFirst(first: seq<char>, rest: seq<char>, sep: char)
    requires sep !in first
    ensures Split(first + [sep] + rest, sep) == [first] + Split(rest, sep)
    decreases |first|
  {
    var s := first + [sep] + rest;
    if |first| == 0 {
      assert s[0] == sep && s[1..] == rest;
    } else {
      assert s[0] == first[0] && s[1..] == first[1..] + [sep] + rest;
      SplitFirst(first[1..], rest, sep);
      assert [first[0]] + first[1..] == first;
    }
  }

  /** No line of the wrapped body is longer than `len`. */
  lemma {:induction false} LinesShort(s: seq<char>, len: nat)
    requires len > 0 && '\n' !in s
    ensures forall i :: 0 <= i < |Split(Lines(s, len), '\n')| ==> |Split(Lines(s, len), '\n')[i]| <= len
    decreases |s|
  {
    if 0 < |s| <= len {
      SplitFirst(s, [], '\n');
      assert Lines(s, len) == s + ['\n'] + [];
    } else if |s| > len {
      var rest := Lines(s[len..], len);
      assert '\n' !in s[..len] && '\n' !in s[len..];
      SplitFirst(s[..len], rest, '\n');
      LinesShort(s[len..], len);
    }
  }

  /** The lines of the wrapped body: with `n` slices, `n` the least number
      with `n * len >= |s|`, line `i` is the `len` characters from `i * len`
      on (fewer in the last line),
      and nothing follows the last newline. */
  lemma LinesPieces(s: seq<char>, len: nat)
    requires len > 0 && '\n' !in s
    ensures var pieces := Split(Lines(s, len), '\n');
            var n := |pieces| - 1;
            && n == (|s| + len - 1) / len
            && pieces[n] == []
            && forall i :: 0 <= i < n ==> i * len < |s| && pieces[i] == s[i * len .. Min(i * len + len, |s|)]
  {
    var pieces := Split(Lines(s, len), '\n');
    var n := |pieces| - 1;
    LinesCount(s, len);
    LinesSlices(s, len);
    CeilDiv(|s|, len, n);
    SlicesByProduct(s, pieces, n, len);
  }

  /** The least `n` with `n * len >= t` is `t` divided by `len`, rounded up. */
  lemma CeilDiv(t: nat, len: nat, n: nat)
    requires len > 0 && t <= Times(n, len) && (n > 0 ==> Times(n - 1, len) < t)
    ensures n == (t + len - 1) / len
  {
    if n > 0 {
      TimesIsMul(n - 1, len);
      assert Times(n, len) == len + Times(n - 1, len);
      assert t + len - 1 == len * (n - 1) + len + (t - 1 - Times(n - 1, len));
      assert len * (n - 1) + len == len * n;
      DivModUnique(t + len - 1, len, n, t - 1 - Times(n - 1, len));
    } else {
      DivModUnique(t + len - 1, len, 0, len - 1);
    }
  }

  /** Slices written with `Times` are the slices written with `*`. */
  lemma SlicesByProduct(s: seq<char>, lines: seq<seq<char>>, n: nat, len: nat)
    requires n <= |lines|
    requires forall i :: 0 <= i < n ==>
               Times(i, len) < |s| && lines[i] == s[Times(i, len) .. Min(Times(i + 1, len), |s|)]
    ensures forall i :: 0 <= i < n ==> i * len < |s| && lines[i] == s[i * len .. Min(i * len + len, |s|)]
  {
    forall i | 0 <= i < n
      ensures i * len < |s| && lines[i] == s[i * len .. Min(i * len + len, |s|)]
    {
      TimesIsMul(i, len);
      assert Times(i + 1, len) == i * len + len;
    }
  }

  /** The wrapped body has one line per started slice of `len`, and ends
      with its newline. */
  lemma {:induction false} LinesCount(s: seq<char>, len: nat)
    requires len > 0 && '\n' !in s
    ensures var pieces := Split(Lines(s, len), '\n');
            var n := |pieces| - 1;
            && pieces[n] == []
            && |s| <= Times(n, len)
            && (n > 0 ==> Times(n - 1, len) < |s|)
    decreases |s|
  {
    LinesStep(s, len);
    if |s| > len {
      var tail := s[len..];
      LinesCount(tail, len);
      var m := |Split(Lines(tail, len), '\n')| - 1;
      assert m > 0 && |Split(Lines(s, len), '\n')| - 1 == m + 1;
      assert Times(m + 1, len) == len + Times(m, len) && Times(m, len) == len + Times(m - 1, len);
    }
  }

  /** Line `i` of the wrapped body is slice `i` of the text. */
  lemma {:induction false} LinesSlices(s: seq<char>, len: nat)
    requires len > 0 && '\n' !in s
    ensures var pieces := Split(Lines(s, len), '\n');
            forall i :: 0 <= i < |pieces| - 1 ==>
              Times(i, len) < |s| && pieces[i] == s[Times(i, len) .. Min(Times(i + 1, len), |s|)]
    decreases |s|
  {
    LinesStep(s, len);
    if 0 < |s| <= len {
      assert Times(1, len) == len;
    } else if |s| > len {
      LinesSlices(s[len..], len);
      SlicesShift(s, len, s[len..], Split(Lines(s[len..], len), '\n'));
    }
  }

  /** Slices of the text after its first `len` characters, preceded by
      those characters, are slices of the whole text. */
  lemma SlicesShift(s: seq<char>, len: nat, tail: seq<char>, others: seq<seq<char>>)
    requires 0 < len < |s| && tail == s[len..] && |others| > 0
    requires forall k :: 0 <= k < |others| - 1 ==>
               Times(k, len) < |tail| && others[k] == tail[Times(k, len) .. Min(Times(k + 1, len), |tail|)]
    ensures var pieces := [s[..len]] + others;
            forall i :: 0 <= i < |pieces| - 1 ==>
              Times(i, len) < |s| && pieces[i] == s[Times(i, len) .. Min(Times(i + 1, len), |s|)]
  {
    var pieces := [s[..len]] + others;
    forall i | 0 <= i < |pieces| - 1
      ensures Times(i, len) < |s| && pieces[i] == s[Times(i, len) .. Min(Times(i + 1, len), |s|)]
    {
      if i == 0 {
        assert Times(1, len) == len;
      } else {
        var k := i - 1;
        assert pieces[i] == others[k];
        assert Times(i, len) == len + Times(k, len) && Times(i + 1, len) == len + Times(i, len);
        DropSlice(s, len, Times(k, len), Min(Times(k + 1, len), |tail|));
      }
    }
  }

  /** The first line of the wrapped body, and the lines after it. */
  lemma LinesStep(s: seq<char>, len: nat)
    requires len > 0 && '\n' !in s
    ensures |s| == 0 ==> Split(Lines(s, len), '\n') == [[]]
    ensures 0 < |s| <= len ==> Split(Lines(s, len), '\n') == [s, []]
    ensures |s| > len ==> Split(Lines(s, len), '\n') == [s[..len]] + Split(Lines(s[len..], len), '\n')
  {
    if 0 < |s| <= len {
      LinesLast(s, len);
    } else if |s| > len {
      LinesNext(s, len, s[..len], s[len..]);
    }
  }

  lemma LinesLast(s: seq<char>, len: nat)
    requires 0 < |s| <= len && '\n' !in s
    ensures Split(Lines(s, len), '\n') == [s, []]
  {
    var empty: seq<char> := [];
    assert Lines(s, len) == s + ['\n'] + empty;
    SplitFirst(s, empty, '\n');
    assert Split(empty, '\n') == [[]];
    assert [s] + [empty] == [s, []];
  }

  lemma LinesNext(s: seq<char>, len: nat, head: seq<char>, tail: seq<char>)
    requires 0 < len < |s| && '\n' !in s && head == s[..len] && tail == s[len..]
    ensures Split(Lines(s, len), '\n') == [head] + Split(Lines(tail, len), '\n')
  {
    var rest := Lines(tail, len);
    assert '\n' !in head;
    assert Lines(s, len) == head + ['\n'] + rest;
    SplitFirst(head, rest, '\n');
  }
}
